=== FILE: README.md ===
# Reels Master, modelled in Dafny

Reels Master is a browser extension for Instagram Reels. It has two halves,
and this project models the core of both.

- **Background service worker.** It turns a reel's page address into a video
  download. It extracts the shortcode from the URL and decodes it into the
  numeric media key. It asks the media-info endpoint for the video URL and
  falls back to a GraphQL query when that fails. It then starts the browser
  download, and the `DOWNLOAD_REEL` message listener replies with
  `{success, downloadUrl, error}`.
- **Content script.** It keeps one volume preference (a volume and a mute
  flag) and applies it to every video on a Reels page. A listener on each
  video re-applies it for the first ten media events. The script finds the
  "action containers" (the column that holds Like, Comment, Share and Save)
  and injects one controls block into each: a volume slider, a mute button
  whose icon follows the preference, and a download button that sends the
  page address to the background worker.

Modules, one per component:

| module | file | models |
|---|---|---|
| `Shortcode` | shortcode.dfy | `shortcodeToPk`: the alphabet, truncation, base-64 decoding, and its inverse |
| `ShortcodeUrl` | shortcode_url.dfy | `extractShortcode`: the URL regular expression as a scanner, plus a declarative reading of the expression |
| `MediaInfo` | media_info.dfy | `extractVideoUrl` on the media-info response |
| `DownloadPipeline` | download_pipeline.dfy | `handleDownload`, `tryGraphQLFallback`, the `onMessage` reply |
| `Routes` | routes.dfy | the `/reels/` route gate |
| `Dom` | dom.dfy | a document: elements with parents, depth and geometry, document order, `querySelector(All)` |
| `ActionContainers` | action_containers.dfy | `findActionContainerFromLikeButton`, `findAllActionContainers` |
| `ControlsInjection` | injection.dfy | `injectControlsToContainer`, the injection loop of `injectControlsToAllContainers` |
| `Volume` | volume.dfy | the preference, slider, mute button, icon, `applyVolumeToVideo` and its enforcement listener |
| `VideoLookup` | video_lookup.dfy | `findVideoForContainer`, `getClosestVideoToElement` |
| `ReelsPage` | reels_page.dfy | the script's handlers on a whole page, and `downloadReel` |
| `Text`, `Wrappers` | text.dfy, wrappers.dfy | string search and numerals; `Option` |

I/O is replaced by parameters, as follows.

- **Network results.** Each `fetch` outcome (rejected, status not ok, body
  not JSON, or a body) is an argument. So is the outcome of the download
  dispatch and the reply of `chrome.runtime.sendMessage`.
- **Traces.** The requests a run would issue are returned as a trace.
- **Clock.** `Date.now()` is the parameter `now`.
- **Page geometry.** Bounding boxes are integer fields of each element.
- **Storage.** `chrome.storage.local.get` gives a `Stored` value in which
  each key may be missing.
- **Video events.** A video's life after its listener is attached is a
  sequence of events. Each event is either one of the four listened events
  or a write by the page. Which listened events occur is up to the
  environment.

## Model

| member | source | states |
|---|---|---|
| `Shortcode.ShortcodeToPk` | src/background/service-worker.ts:6-15 | the key is the positional base-64 value (digit k weighs 64^(n-1-k)) of the code cut to its first len-28 characters when it is longer than 28 |
| `Shortcode.CharValueIsIndexOf` | src/background/service-worker.ts:4-12 | a character's digit value equals its first position in the 64-character alphabet, and is -1 outside it |
| `Shortcode.HornerIsPositional` | src/background/service-worker.ts:10-13 | the left-to-right accumulation `pk * 64 + digit` equals positional base-64 notation |
| `Shortcode.ShortcodeToPkBounds` | src/background/service-worker.ts:6-15 | an alphabet-only code of n <= 28 characters decodes into 0 <= pk < 64^n |
| `Shortcode.ShortcodeToPkOfLongCode` | src/background/service-worker.ts:7-9 | a code longer than 28 characters decodes exactly like its prefix of length len-28 |
| `Shortcode.DecodeEncode` | src/background/service-worker.ts:10-13 | encoding x < 64^n as an n-digit numeral and decoding gives x back |
| `Shortcode.EncodeDecode` | src/background/service-worker.ts:10-13 | decoding an alphabet-only code and re-encoding it at its length gives the code back |
| `Shortcode.ShortcodeToPkInjective` | src/background/service-worker.ts:6-15 | two distinct alphabet-only codes of equal length up to 28 never share a key |
| `Shortcode.ThirtyCharacterExample` | src/background/service-worker.ts:7-9 | "BC" followed by 28 'A's decodes to 66 (its first two characters), not to the value 0 of its last 28 |
| `Shortcode.InvalidCharacterExample` | src/background/service-worker.ts:12 | a character outside the alphabet contributes -1: "B!" decodes to 63 |
| `ShortcodeUrl.ExtractShortcode` | src/background/service-worker.ts:17-20 | a returned shortcode is non-empty and holds none of `/ ? # &` |
| `ShortcodeUrl.ExtractShortcodeIsLeftmostMatch` | src/background/service-worker.ts:17-20 | null exactly when the expression matches at no position; otherwise group 1 of a match at a position before which nothing matches |
| `ShortcodeUrl.ReelUrlExample` | src/background/service-worker.ts:18 | a `/reel/` address yields the path segment after it |
| `ShortcodeUrl.AudioUrlExample` | src/background/service-worker.ts:18 | `/reels/audio/...` is refused by the lookahead and yields no shortcode |
| `MediaInfo.FirstCarouselUrl` | src/background/service-worker.ts:163-170 | the first video version of the first carousel entry that has any; none when no entry has one; never an empty URL |
| `MediaInfo.ExtractVideoUrl` | src/background/service-worker.ts:148-173 | only `items[0]` is read; `video_url` wins, then `video_versions[0].url`, then the carousel scan; an empty result string counts as none |
| `MediaInfo.CarouselUrlIsListed` | src/background/service-worker.ts:163-170 | a URL from the carousel scan is the URL of a video version of some listed entry |
| `MediaInfo.ExtractedUrlIsFromFirstItem` | src/background/service-worker.ts:148-173 | every extracted URL is one of the fields of the first item |
| `MediaInfo.DirectUrlWinsExample` | src/background/service-worker.ts:154-156 | with both `video_url` and `video_versions` set, `video_url` is returned |
| `MediaInfo.CarouselSkipsEntriesWithoutVideoExample` | src/background/service-worker.ts:163-170 | carousel entries without video versions are skipped and the next entry's first version is taken |
| `DownloadPipeline.TryGraphQLFallback` | src/background/service-worker.ts:95-146 | one GraphQL request carrying the shortcode, then each failure (status, missing media, empty video URL, thrown error) with its message; success exactly when a download was dispatched |
| `DownloadPipeline.HandleDownload` | src/background/service-worker.ts:35-93 | no shortcode means a failure with no request; the primary request uses the decoded key; the fallback runs exactly when the primary is not ok or yields no URL; success only through a dispatched download of the reported URL |
| `DownloadPipeline.OnMessage` | src/background/service-worker.ts:26-33 | a `DOWNLOAD_REEL` message gets exactly one well-formed reply, the download's result; any other message gets none |
| `DownloadPipeline.FallbackRefererNamesShortcode` | src/background/service-worker.ts:109-115 | the fallback request has a `Referer` header containing the shortcode |
| `DownloadPipeline.AtMostOneOfEachRequest` | src/background/service-worker.ts:35-93 | one invocation makes at most one media-info request (always first) and at most one download, and succeeds only with exactly one download |
| `DownloadPipeline.PrimaryUrlSkipsFallback` | src/background/service-worker.ts:73-87 | an ok primary response with a video URL succeeds with that URL and issues no GraphQL request |
| `DownloadPipeline.NoVideoInPrimaryDefersToFallback` | src/background/service-worker.ts:65-78 | an ok primary without a video URL settles exactly as a non-ok primary does, that is, as the fallback alone |
| `ActionContainers.WalkIsFirstOfChain` | src/content/content.ts:176-192 | the parent walk returns the first element of the chain of ancestors, stopping before the body, that is an action container |
| `ActionContainers.FindActionContainerFromLikeButton` | src/content/content.ts:173-195 | the first examined ancestor of the Like icon that holds all four labelled icons and at least four children; it can be the body only when the body is the icon's parent |
| `ActionContainers.Candidates` | src/content/content.ts:163-164 | every container found from a like button is an element of the page and an action container |
| `ActionContainers.Dedup` | src/content/content.ts:165-166 | the reference for the loop: no repeats, same members as its input |
| `ActionContainers.DedupKeepsFirstOccurrenceOrder` | src/content/content.ts:163-168 | the deduplicated list keeps the order of first occurrence |
| `ActionContainers.CollectIsDedup` | src/content/content.ts:158-171 | the loop with its `includes` check equals the deduplication of the containers found, in the order of the like buttons |
| `ActionContainers.FindAllActionContainers` | src/content/content.ts:158-171 | every container found from some like button, each once, in order of first finding, all of them action containers |
| `ControlsInjection.ControlsBlock` | src/content/content.ts:220-224 | the block is a `div` with class `reels-master-controls`, child of the container |
| `ControlsInjection.InsertControls` | src/content/content.ts:207-214 | one new element, the block, becomes the container's first child; every other element is unchanged |
| `ControlsInjection.InsertFirstChild` | src/content/content.ts:214 | `insertBefore(e, firstChild)`: the new element takes the next identity, becomes the container's first child and comes right after it in document order; other elements are unchanged |
| `ControlsInjection.InsertChildKeepsWellFormed` | src/content/content.ts:214 | inserting a childless element under an existing one keeps the document well formed |
| `ControlsInjection.InsertChildQueryAll` | src/content/content.ts:83 | after an insertion `querySelectorAll` selects what it selected before, plus the new element when it matches |
| `ControlsInjection.InsertChildKeepsQueryAll` | src/content/content.ts:83 | a selector the new element does not match selects exactly the same elements in the same order |
| `ControlsInjection.InsertGivesControls` | src/content/content.ts:202-214 | after the insertion the container has a controls block under it |
| `ControlsInjection.InsertKeepsWellFormed` | src/content/content.ts:214 | the insertion keeps parent links, depths and document order consistent |
| `ControlsInjection.InsertKeepsFindAll` | src/content/content.ts:214 | inserting a block does not change which containers a later scan finds, nor their order |
| `ControlsInjection.InjectControlsToContainer` | src/content/content.ts:197-218 | a processed container is left alone; one that already holds controls is only marked; any other gets one new block and is marked |
| `ControlsInjection.InjectIsIdempotent` | src/content/content.ts:198-200 | injecting into the same container twice is the same as once |
| `ControlsInjection.InjectGivesControls` | src/content/content.ts:197-218 | a container not yet processed holds controls after the call |
| `ControlsInjection.FirstInjection` | src/content/content.ts:197-218 | in a well-formed document with no controls yet, the first injection keeps it well formed, marks the container, gives it its block, and adds no element of any other tag |
| `ControlsInjection.InjectStep` | src/content/content.ts:197-218 | one injection keeps the page well formed, keeps every processed container's controls, and changes neither the set of action containers nor a scan's result |
| `ControlsInjection.InjectAll` | src/content/content.ts:153-155 | after the loop, the processed set is the old one plus the containers visited; no element or created block is lost |
| `ControlsInjection.InjectAllProcessedNoop` | src/content/content.ts:198-200 | a loop over processed containers changes nothing |
| `ControlsInjection.InjectAllKeepsTag` | src/content/content.ts:153-155 | the injection loop keeps the document well formed and adds no element of any tag but `div` |
| `ControlsInjection.ScanKeepsTag` | src/content/content.ts:146-156 | a scan leaves `querySelectorAll` of any other tag, such as `video`, unchanged |
| `ControlsInjection.ScanAndInject` | src/content/content.ts:146-156 | off a Reels route nothing changes; on one, blocks and processed containers only accumulate |
| `ControlsInjection.ScanGivesEveryContainerControls` | src/content/content.ts:146-156 | after a scan on a Reels route every container found is processed and holds controls, and a new scan finds the same containers |
| `ControlsInjection.ScanTwiceIsScanOnce` | src/content/content.ts:146-156 | a second scan right after a first changes nothing: each container gets its block once |
| `Volume.SliderValue` | src/content/content.ts:279 | the slider shows zero exactly when muted or at volume zero, and the volume otherwise |
| `Volume.SliderInput` | src/content/content.ts:263-266 | a slider input sets the volume and mutes exactly when the value is zero |
| `Volume.ToggleMute` | src/content/content.ts:240-241 | the mute button flips the mute flag and keeps the volume |
| `Volume.SliderShowsInput` | src/content/content.ts:263-270 | after an input every slider shows exactly the value chosen |
| `Volume.ToggleMuteIsInvolution` | src/content/content.ts:240-241 | two clicks on the mute button restore the preference |
| `Volume.UnmuteAfterZeroStaysSilent` | src/content/content.ts:240-266 | unmuting after dragging to zero leaves the slider at zero although the mute flag is off |
| `Volume.IconFor` | src/content/content.ts:293-309 | the muted glyph exactly when the slider shows zero, the low glyph exactly below 50, the loud glyph exactly at 50 or more |
| `Volume.IconFollowsSlider` | src/content/content.ts:293-309 | the icon depends only on the slider value and never gets quieter as the slider goes up |
| `Volume.ApplyVolumeToVideo` | src/content/content.ts:88-113 | off a Reels route the video is untouched; on one it follows the preference and has a listener; a newly attached listener starts counting at zero; an attached listener is kept, counter included |
| `Volume.OnMediaEvent` | src/content/content.ts:100-106 | each listened event adds one to the counter; up to the tenth it re-applies the preference, after that it leaves the video as it is |
| `Volume.CounterCountsEvents` | src/content/content.ts:97-111 | the listener's counter equals its start value plus the number of listened events |
| `Volume.EnforcedWithinLimit` | src/content/content.ts:100-106 | while fewer than ten events have been counted, the next listened event restores the preference whatever the page wrote |
| `Volume.PageWinsAfterLimit` | src/content/content.ts:100-106 | once ten events have been counted, the video ends with whatever the page last wrote |
| `Volume.EnforcementFromAttachment` | src/content/content.ts:88-111 | from the moment a listener is attached, the next listened event restores the preference while fewer than ten have passed; after ten, a value the page writes survives the next event |
| `Volume.TenthEventIsLastEnforced` | src/content/content.ts:97-106 | on a fresh video, nine events then a page write then one event ends at the preference; ten events then a page write then one event ends at the page's values |
| `Volume.FiredCountAppend` | src/content/content.ts:100-101 | the events counted over two runs of events add up |
| `Volume.ReapplyKeepsCounter` | src/content/content.ts:94-96 | re-applying on a later pass neither resets nor re-arms the listener, and applying twice is applying once |
| `VideoLookup.ClosestIn` | src/content/content.ts:349-366 | none exactly when no video has height; otherwise the first video whose centre is nearest, by strict comparison, among those with height |
| `VideoLookup.GetClosestVideoToElement` | src/content/content.ts:345-367 | the same over every video of the document, in document order |
| `VideoLookup.ClosestIsUnique` | src/content/content.ts:360-363 | at most one position is the first of the nearest visible videos, so the scan's result is determined |
| `VideoLookup.ClosestExample` | src/content/content.ts:353-364 | among centres 50, 10 and 200 pixels away plus a flat video, the 10-pixel one is chosen |
| `VideoLookup.WalkForVideoIsFirstOfChain` | src/content/content.ts:332-340 | the parent walk returns the first video under the first ancestor, up to but excluding the body, that has one |
| `VideoLookup.VideoAbove` | src/content/content.ts:330-340 | the video found by the walk lies under an ancestor of the container, and none exactly when no examined ancestor has one |
| `VideoLookup.FindVideoForContainer` | src/content/content.ts:329-343 | the video under the nearest examined ancestor, else the nearest visible video of the page |
| `ReelsPage.ApplyVolumeToAllVideos` | src/content/content.ts:80-86 | off a Reels route nothing changes; on one every `video` element of the document (when the tracked videos are exactly the document's) follows the preference and has a listener, and existing listeners are kept |
| `ReelsPage.UpdateAllSliders` | src/content/content.ts:277-284 | every slider shows the slider value of the preference; nothing else changes |
| `ReelsPage.UpdateAllVolumeIcons` | src/content/content.ts:286-291 | every button shows the icon of the preference; nothing else changes |
| `ReelsPage.AfterPrefsChange` | src/content/content.ts:243-246 | after a handler the preference is saved, every control shows it, and on a Reels route every video follows it |
| `ReelsPage.OnSliderInput` | src/content/content.ts:263-272 | the volume becomes the value, muted exactly at zero, every slider shows the value, and the controls stay consistent |
| `ReelsPage.OnMuteClick` | src/content/content.ts:240-247 | the mute flag flips, the volume stays, the new preference is saved and shown everywhere |
| `ReelsPage.MuteClickTwiceRestores` | src/content/content.ts:240-247 | two clicks restore the preference, every slider and every icon |
| `ReelsPage.LoadedPrefs` | src/content/content.ts:30-36 | a stored key replaces the current value and a missing key keeps it |
| `ReelsPage.SaveThenLoadRoundTrip` | src/content/content.ts:28-50 | loading what was saved gives the saved preference back |
| `ReelsPage.OnSettingsLoadedAsWritten` | src/content/content.ts:28-41 | the storage callback as written: the preference becomes the loaded one; on a Reels route every video follows it (off the route the videos are untouched); every slider shows it; the icons, the document and the set of videos stay as they were |
| `ReelsPage.OnSettingsLoaded` | src/content/content.ts:28-41 | the callback refreshing the icons too leaves every control consistent with the loaded preference |
| `ReelsPage.EarlyPage` | src/content/content.ts:16-55 | a page where container `c` received its block before the storage read returned: default preference, one block whose slider and icon show it, no video |
| `ReelsPage.StartInjectsOne` | src/content/content.ts:146-156 | on a Reels route, when the scan of an untouched document finds just `c`, the first `injectControlsToAllContainers` turns the start page into exactly that early page |
| `ReelsPage.StartHasContainer` | src/content/content.ts:173-194 | in a body holding one `div` whose four children are the like, comment, share and save icons, the `div` is an action container |
| `ReelsPage.StartScanFindsOne` | src/content/content.ts:158-171 | the scan of that document finds the `div` and nothing else |
| `ReelsPage.EarlyPageMeetsInvariant` | src/content/content.ts:197-218 | on a well-formed document holding no controls and no video, injecting into a container gives a page that meets the invariant, with that container processed and its block the one created |
| `ReelsPage.StaleIconAfterLoad` | src/content/content.ts:37-38 | starting from that page, which meets the invariant, a stored volume of 20 or a stored mute leaves the loud icon beside a slider at 20 or 0 |
| `ReelsPage.StaleIconOnStartPage` | src/content/content.ts:37-38 | on that document, `start` before the storage read yields the early page, which meets the invariant; a stored volume of 20 then leaves the loud icon beside a slider at 20 |
| `ReelsPage.RegisterControls` | src/content/content.ts:226-260 | each new block gets a slider and an icon showing the current preference, whether or not the older controls do; older controls are unchanged; consistent controls stay consistent |
| `ReelsPage.InjectControlsToAllContainers` | src/content/content.ts:146-156 | the page's injection is the scan's, and exactly the blocks the scan created gain a slider and an icon; preference and videos are unchanged |
| `ReelsPage.InjectKeepsConsistent` | src/content/content.ts:226-260 | new controls show the current preference, so consistent controls stay consistent |
| `ReelsPage.InjectTwiceIsInjectOnce` | src/content/content.ts:146-156 | a second injection pass right after a first changes nothing on the page |
| `ReelsPage.VideoElement` | src/content/content.ts:64 | the added element is a `video`, a childless element under its parent |
| `ReelsPage.OnVideoAdded` | src/content/content.ts:61-69 | the page's new `video` element joins the document and the tracked videos under the next identity; on a Reels route it follows the preference with a listener counting from zero; off the route it keeps the page's values; other videos are unchanged |
| `ReelsPage.PrefsHandlersKeepInvariant` | src/content/content.ts:28-41 | the slider, the mute button and the settings callback keep the document, the tracked videos and the controls consistent |
| `ReelsPage.InjectKeepsInvariant` | src/content/content.ts:146-156 | an injection pass adds no `video` element, so the tracked videos are still exactly the document's, and the controls stay consistent |
| `ReelsPage.OnVideoAddedKeepsInvariant` | src/content/content.ts:61-69 | after a video is added the tracked videos are still exactly the document's `video` elements, which are the old ones plus the new one |
| `ReelsPage.OnVideoEventKeepsInvariant` | src/content/content.ts:100-111 | a listened event keeps every part of the page invariant |
| `ReelsPage.OnVideoEvent` | src/content/content.ts:100-111 | other videos are unchanged; a video without a listener is unchanged; a listened event adds one to the video's counter, restores the preference while the counter was below ten, and otherwise leaves the video's volume and mute flag as the page set them |
| `ReelsPage.DownloadReel` | src/content/content.ts:369-422 | off the Reels path it alerts and sends nothing; otherwise it sends `DOWNLOAD_REEL` with the address, shows no alert exactly on a successful reply (done face), and otherwise alerts "Failed to download video: " plus a message and restores the download face |
| `ReelsPage.ClickReportsBackgroundRun` | src/content/content.ts:387-396 | end to end, a click shows no alert exactly when the background's run succeeded, and otherwise shows the background's error |
| `ReelsPage.AudioPageIsOnReelsRoute` | src/content/content.ts:372 | an audio page address passes the page's `/reels/` check but holds no shortcode |
| `ReelsPage.AudioPageClickFails` | src/content/content.ts:369-396 | a click there reaches the background, which answers that no shortcode could be extracted, and the alert says so |

## Left out

- I/O is left out. The network, `chrome.downloads`, `chrome.storage` and
  `chrome.runtime` messaging appear only as the outcomes passed in and the
  requests recorded in a trace. Headers and constants are modelled as
  values. The URL encoding of the GraphQL `variables` is left out; the
  request records the document id and the shortcode instead.
- JSON parsing: response bodies are already-typed values. A body that
  cannot be parsed, or whose shape makes the worker throw while reading it,
  is the `BadJson` outcome carrying the thrown error.
- Timers are left out: the two-second `setTimeout` that restores the
  download glyph, `requestAnimationFrame`, and the `DOMContentLoaded`
  start-up ordering. The model's click ends with the face it leaves before
  that timer.
- The MutationObserver's `shouldCheck` pre-filter
  (`src/content/content.ts:115-144`) is left out. It only decides whether a
  scan runs at all, and the scan is modelled (`ScanAndInject`) and proved
  idempotent, so running one more scan is harmless.
- The content of the controls block is left out. The slider, the button's
  SVG markup and the download button are not elements of the model's
  document. The block is one `div` child of the container. Its slider and
  icon are kept in the page state, keyed by the block.
- Logging, `console`, and the visual side of `alert` are left out. The
  model records the alert text.
- Volume is an integer percentage, the range slider's own value. The stored
  fraction `value / 100` and its float artefacts, such as
  `String(0.07 * 100)`, are not modelled. Geometry is in integer pixels, and
  centres are compared doubled, so no halving is needed.
- `DownloadPipeline.OnMessage`: the listener's `.catch` branch
  (`src/background/service-worker.ts:30`) is not modelled. `handleDownload`
  and `tryGraphQLFallback` catch every error themselves, so the promise it
  guards never rejects.
- `WeakSet` and `WeakMap` identity is element identity (`NodeId`). Garbage
  collection is not modelled.
- There is no `cleanup` on leaving the Reels route: this code has none. The
  route gate is checked at each entry point instead.
- `Shortcode.ShortcodeToPk`: lengths are counted in code points, while
  JavaScript's `length` and `slice` count UTF-16 units. The two agree on
  the ASCII shortcodes that URLs carry.
- The document only grows. A video that the page removes or moves is not
  modelled. A new video is inserted as its parent's first child, so where
  the page actually puts it in document order is not modelled.
- The observer's branch for an added subtree (`src/content/content.ts:66-68`)
  applies the preference to every video inside it. The model treats those
  videos as added one at a time (`OnVideoAdded`).
- The listened events are inputs, including those the script's own writes
  cause. The browser queues a `volumechange` whenever `volume` or `muted`
  changes, and the script itself writes them in three places. The first is
  the write in `applyVolumeToVideo` just before the listener is attached
  (`src/content/content.ts:91-92`). The second is each restore inside
  `enforceVolume` (`:103-104`). The third is every later
  `applyVolumeToAllVideos` after a slider input or a mute click. The
  listener counts all of these (`:101`). So the ten-event budget is shared
  with the script's own writes, and a page write that is reverted costs two
  counts. The model's writes (`ApplyVolumeToVideo`, `AfterPrefsChange`)
  produce no event. `EnforcementFromAttachment` and
  `TenthEventIsLastEnforced` therefore count listened events of any origin,
  not attempts by the page.
- `DownloadReel` takes the page address as given. The source never calls
  `findVideoForContainer` from `downloadReel`. Both are modelled, but
  separately.

Behaviour of the source worth noting:

- A shortcode longer than 28 characters keeps its first `len - 28`
  characters (`slice(0, -28)`), not its last 28 (`ThirtyCharacterExample`).
- Only the English label "Like" is searched for, not localized labels.
- `getClosestVideoToElement` measures from the container's own centre, not
  from the viewport's centre. Videos without height are skipped, and ties
  keep the first video in document order.

## Findings

| source | as written | input that shows it | evidently intended | confidence | as-written member | corrected member |
|---|---|---|---|---|---|---|
| src/content/content.ts:37-38 | the storage callback re-applies the loaded preference to videos and sliders but does not call `updateAllVolumeIcons` | controls injected before the storage read returns, then stored `volume: 0.2` (or `muted: true`): the slider shows 20 (or 0) while the button keeps the loud glyph | the callback also refreshes every icon, as both controls handlers do | medium, not executed | `ReelsPage.OnSettingsLoadedAsWritten` (with `ReelsPage.StaleIconAfterLoad` and `ReelsPage.StaleIconOnStartPage`) | `ReelsPage.OnSettingsLoaded` |

=== FILE: action_containers.dfy ===
/**
 * Locating the like/comment/share/save button clusters and injecting the
 * extension's controls into each exactly once (`findActionContainerFromLikeButton`,
 * `findAllActionContainers`, `injectControlsToContainer` and
 * `injectControlsToAllContainers` in the content script).
 */
module ActionContainers {
  import opened Wrappers
  import opened Dom

  const ControlsClass := "reels-master-controls"
  const ControlsTag := "div"
  const MinActionChildren: nat := 4

  /** Icons of all four actions below `c`, and at least four children. */
  predicate IsActionContainer(d: Document, c: NodeId) {
    && c in d.nodes
    && HasMatchUnder(d, c, LabeledSvg("Like"))
    && HasMatchUnder(d, c, LabeledSvg("Comment"))
    && HasMatchUnder(d, c, LabeledSvg("Share"))
    && HasMatchUnder(d, c, LabeledSvg("Save"))
    && |d.nodes[c].children| >= MinActionChildren
  }

  /** The container test as a value, so that searches can be compared. */
  function ContainerTest(d: Document): NodeId -> bool {
    (x: NodeId) => IsActionContainer(d, x)
  }

  /** The prefix of `s` before the first occurrence of the body. */
  function UntilBody(body: NodeId, s: seq<NodeId>): (r: seq<NodeId>)
    ensures |r| <= |s| && r == s[..|r|]
    ensures body !in r && (|r| < |s| ==> s[|r|] == body)
  {
    if |s| == 0 || s[0] == body then [] else [s[0]] + UntilBody(body, s[1..])
  }

  /** What a walk started at `x` examines: `x` itself, then its ancestors
      up to, not including, the body. */
  function Chain(d: Document, x: NodeId): seq<NodeId> {
    [x] + UntilBody(d.body, Ancestors(d, x))
  }

  /** The elements examined for a like button: its parent, then further
      ancestors until the body. The body is examined only as the parent. */
  function Examined(d: Document, like: NodeId): (r: seq<NodeId>)
    ensures forall k :: 1 <= k < |r| ==> r[k] != d.body
    ensures forall k :: 0 <= k < |r| ==> r[k] in Ancestors(d, like)
  {
    match ParentOf(d, like)
    case None => []
    case Some(p) =>
      var tail := UntilBody(d.body, Ancestors(d, p));
      assert forall k :: 0 <= k < |tail| ==> tail[k] in Ancestors(d, p);
      Chain(d, p)
  }

  /** The `while (parent)` loop, starting at `x`. */
  function WalkForContainer(d: Document, x: NodeId): Option<NodeId>
    decreases if x in d.nodes then d.nodes[x].depth + 1 else 0
  {
    if IsActionContainer(d, x) then Some(x)
    else
      match ParentOf(d, x)
      case None => None
      case Some(p) => if p == d.body then None else WalkForContainer(d, p)
  }

  lemma {:induction false} WalkIsFirstOfChain(d: Document, x: NodeId)
    ensures WalkForContainer(d, x) == FirstOf(Chain(d, x), ContainerTest(d))
    decreases if x in d.nodes then d.nodes[x].depth + 1 else 0
  {
    var c := Chain(d, x);
    assert c[0] == x && c[1..] == UntilBody(d.body, Ancestors(d, x));
    if !IsActionContainer(d, x) {
      match ParentOf(d, x)
      case None =>
        assert c[1..] == [];
      case Some(p) =>
        if p != d.body {
          WalkIsFirstOfChain(d, p);
          assert c[1..] == Chain(d, p);
        } else {
          assert c[1..] == [];
        }
    }
  }

  /** `findActionContainerFromLikeButton`: the first examined ancestor that is
      an action container. */
  function FindActionContainerFromLikeButton(d: Document, like: NodeId): (r: Option<NodeId>)
    ensures r == FirstOf(Examined(d, like), ContainerTest(d))
    ensures r.Some? ==> IsActionContainer(d, r.value) && r.value in Ancestors(d, like)
    ensures r.Some? && r.value == d.body ==> ParentOf(d, like) == Some(d.body)
  {
    match ParentOf(d, like)
    case None => None
    case Some(p) =>
      WalkIsFirstOfChain(d, p);
      WalkForContainer(d, p)
  }

  // ---------------------------------------------------------------------
  // findAllActionContainers

  function LikeButtons(d: Document): seq<NodeId> {
    QueryAll(d, LabeledSvg("Like"))
  }

  /** The containers found for each like button, in order, repeats kept. */
  function Candidates(d: Document, likes: seq<NodeId>): (r: seq<NodeId>)
    ensures forall c :: c in r ==> c in d.nodes && IsActionContainer(d, c)
  {
    if |likes| == 0 then []
    else
      Candidates(d, likes[..|likes| - 1])
      + match FindActionContainerFromLikeButton(d, likes[|likes| - 1])
        case None => []
        case Some(c) => [c]
  }

  predicate NoDuplicates(s: seq<NodeId>) {
    forall i, j :: 0 <= i < j < |s| ==> s[i] != s[j]
  }

  /** Position of the first occurrence of `x` in `s`. */
  function FirstIndex(s: seq<NodeId>, x: NodeId): (k: nat)
    requires x in s
    ensures k < |s| && s[k] == x && x !in s[..k]
  {
    if s[0] == x then 0 else 1 + FirstIndex(s[1..], x)
  }

  lemma {:induction false} FirstIndexAppend(s: seq<NodeId>, t: seq<NodeId>, x: NodeId)
    requires x in s + t
    ensures x in s ==> FirstIndex(s + t, x) == FirstIndex(s, x)
    ensures x !in s ==> FirstIndex(s + t, x) == |s| + FirstIndex(t, x)
    decreases |s|
  {
    if |s| > 0 {
      assert (s + t)[0] == s[0];
      assert (s + t)[1..] == s[1..] + t;
      if s[0] != x {
        FirstIndexAppend(s[1..], t, x);
      }
    } else {
      assert s + t == t;
    }
  }

  /** The loop of `findAllActionContainers` over the like buttons: a found
      container is appended unless it is already listed. */
  function CollectContainers(d: Document, likes: seq<NodeId>): seq<NodeId>
  {
    if |likes| == 0 then []
    else
      var acc := CollectContainers(d, likes[..|likes| - 1]);
      match FindActionContainerFromLikeButton(d, likes[|likes| - 1])
      case Some(c) => if c in acc then acc else acc + [c]
      case None => acc
  }

  /** Each element of `s` once, in the order of its first occurrence: the
      reference the container loop is compared with. */
  function Dedup(s: seq<NodeId>): (r: seq<NodeId>)
    ensures NoDuplicates(r)
    ensures forall x :: x in r <==> x in s
  {
    if |s| == 0 then []
    else
      var acc := Dedup(s[..|s| - 1]);
      if s[|s| - 1] in acc then acc else acc + [s[|s| - 1]]
  }

  /** Every element of `r` occurs in `s`, and `r` lists them in the order of
      their first occurrence in `s`. */
  predicate InFirstOccurrenceOrder(r: seq<NodeId>, s: seq<NodeId>)
  {
    (forall x :: x in r ==> x in s) &&
    forall i, j :: 0 <= i < j < |r| ==> FirstIndex(s, r[i]) < FirstIndex(s, r[j])
  }

  lemma {:induction false} DedupKeepsFirstOccurrenceOrder(s: seq<NodeId>)
    ensures InFirstOccurrenceOrder(Dedup(s), s)
    decreases |s|
  {
    if |s| > 0 {
      var before := s[..|s| - 1];
      var x := s[|s| - 1];
      assert s == before + [x];
      DedupKeepsFirstOccurrenceOrder(before);
      var acc := Dedup(before);
      forall y | y in before ensures FirstIndex(s, y) == FirstIndex(before, y) {
        FirstIndexAppend(before, [x], y);
      }
      var r := Dedup(s);
      if x !in acc {
        FirstIndexAppend(before, [x], x);
        assert r == acc + [x];
        forall i, j | 0 <= i < j < |r|
          ensures FirstIndex(s, r[i]) < FirstIndex(s, r[j])
        {
          assert r[i] == acc[i] && r[i] in before;
          if j < |acc| {
            assert r[j] == acc[j] && r[j] in before;
            assert InFirstOccurrenceOrder(acc, before);
            assert FirstIndex(before, acc[i]) < FirstIndex(before, acc[j]);
          } else {
            assert r[j] == x && x !in before;
            assert FirstIndex(s, x) == |before| + FirstIndex([x], x);
            assert FirstIndex(s, r[i]) == FirstIndex(before, r[i]) < |before|;
          }
        }
      }
    }
  }

  /** The container loop is `Dedup` of the containers found, in finding order. */
  lemma {:induction false} CollectIsDedup(d: Document, likes: seq<NodeId>)
    ensures CollectContainers(d, likes) == Dedup(Candidates(d, likes))
    decreases |likes|
  {
    if |likes| > 0 {
      var init := likes[..|likes| - 1];
      CollectIsDedup(d, init);
      var before := Candidates(d, init);
      match FindActionContainerFromLikeButton(d, likes[|likes| - 1])
      case None =>
        assert Candidates(d, likes) == before;
      case Some(c) =>
        var all := Candidates(d, likes);
        assert all == before + [c];
        assert all[..|all| - 1] == before;
    }
  }

  /** `findAllActionContainers`: every container found from some like button,
      once each, in the order of first finding. */
  function FindAllActionContainers(d: Document): (r: seq<NodeId>)
    ensures NoDuplicates(r)
    ensures forall c :: c in r <==> c in Candidates(d, LikeButtons(d))
    ensures forall c :: c in r ==> IsActionContainer(d, c)
    ensures forall c :: c in r ==> c in d.nodes
    ensures InFirstOccurrenceOrder(r, Candidates(d, LikeButtons(d)))
  {
    CollectIsDedup(d, LikeButtons(d));
    DedupKeepsFirstOccurrenceOrder(Candidates(d, LikeButtons(d)));
    CollectContainers(d, LikeButtons(d))
  }
}

=== FILE: dom.dfy ===
/**
 * A finite DOM: elements keyed by identity, each with its parent, ordered
 * children, tag, `aria-label`, class list and vertical geometry (integer
 * pixels), plus the document order used by `querySelector(All)`.
 *
 * Each element records its depth; a parent link is followed only when it
 * leads to a strictly shallower element, which is what makes every upward
 * walk terminate. In a well-formed document every link qualifies.
 */
module Dom {
  import opened Wrappers

  type NodeId = nat

  datatype Element = Element(
    tag: string,
    ariaLabel: Option<string>,
    classes: set<string>,
    parent: Option<NodeId>,
    children: seq<NodeId>,
    depth: nat,
    top: int,
    height: nat)

  datatype Document = Document(
    nodes: map<NodeId, Element>,
    order: seq<NodeId>,
    body: NodeId,
    nextId: NodeId)

  /** The parent of `n`, when it is an element strictly closer to the root. */
  function ParentOf(d: Document, n: NodeId): (p: Option<NodeId>)
    ensures p.Some? ==> n in d.nodes && p.value in d.nodes
                        && d.nodes[p.value].depth < d.nodes[n].depth
  {
    if n in d.nodes && d.nodes[n].parent.Some?
       && d.nodes[n].parent.value in d.nodes
       && d.nodes[d.nodes[n].parent.value].depth < d.nodes[n].depth
    then d.nodes[n].parent
    else None
  }

  /** Every parent link leads to a shallower element, children and parent
      links agree, the body exists, `nextId` is beyond every element, and
      `order` lists exactly the elements. That `order` is the preorder of
      the tree is taken as given, not checked. */
  ghost predicate WellFormed(d: Document) {
    && d.body in d.nodes
    && (forall x :: x in d.order <==> x in d.nodes)
    && (forall n :: n in d.nodes ==> n < d.nextId)
    && (forall n :: n in d.nodes ==> ParentOf(d, n) == d.nodes[n].parent)
    && (forall n, k :: n in d.nodes && 0 <= k < |d.nodes[n].children| ==>
          d.nodes[n].children[k] in d.nodes
          && d.nodes[d.nodes[n].children[k]].parent == Some(n))
  }

  /** The proper ancestors of `n`, nearest first (`parentElement` repeatedly). */
  function Ancestors(d: Document, n: NodeId): (a: seq<NodeId>)
    ensures forall k :: 0 <= k < |a| ==> a[k] in d.nodes
    decreases if n in d.nodes then d.nodes[n].depth + 1 else 0
  {
    match ParentOf(d, n)
    case None => []
    case Some(p) => [p] + Ancestors(d, p)
  }

  /** The CSS selectors the content script uses. */
  datatype Selector =
    | LabeledSvg(ariaLabel: string)   // svg[aria-label="…"]
    | TagName(name: string)       // video
    | ClassName(name: string)     // .reels-master-…

  predicate Matches(e: Element, sel: Selector) {
    match sel
    case LabeledSvg(l) => e.tag == "svg" && e.ariaLabel == Some(l)
    case TagName(t) => e.tag == t
    case ClassName(c) => c in e.classes
  }

  /** `s` restricted to the elements that `keep` accepts, order kept. */
  function Filter(s: seq<NodeId>, keep: NodeId -> bool): (r: seq<NodeId>)
    ensures forall x :: x in r <==> x in s && keep(x)
    ensures |r| <= |s|
  {
    if |s| == 0 then []
    else (if keep(s[0]) then [s[0]] else []) + Filter(s[1..], keep)
  }

  /** When no position of `s` is kept, the filter is empty. */
  lemma {:induction false} FilterNone(s: seq<NodeId>, keep: NodeId -> bool)
    requires forall j :: 0 <= j < |s| ==> !keep(s[j])
    ensures Filter(s, keep) == []
    decreases |s|
  {
    if |s| > 0 {
      FilterNone(s[1..], keep);
    }
  }

  /** When exactly one position of `s` is kept, the filter is that element. */
  lemma {:induction false} FilterSingle(s: seq<NodeId>, keep: NodeId -> bool, i: nat)
    requires i < |s| && keep(s[i])
    requires forall j :: 0 <= j < |s| && j != i ==> !keep(s[j])
    ensures Filter(s, keep) == [s[i]]
    decreases |s|
  {
    if i == 0 {
      FilterNone(s[1..], keep);
    } else {
      assert !keep(s[0]);
      FilterSingle(s[1..], keep, i - 1);
    }
  }

  /** `document.querySelectorAll(sel)`: matching elements in document order. */
  function QueryAll(d: Document, sel: Selector): (r: seq<NodeId>)
    ensures forall x :: x in r <==> x in d.order && x in d.nodes && Matches(d.nodes[x], sel)
  {
    Filter(d.order, x => x in d.nodes && Matches(d.nodes[x], sel))
  }

  /** When the element at position `i` of the order is the only match, the
      query finds just that element. */
  lemma QueryAllSingle(d: Document, sel: Selector, i: nat)
    requires i < |d.order| && d.order[i] in d.nodes && Matches(d.nodes[d.order[i]], sel)
    requires forall j :: 0 <= j < |d.order| && j != i && d.order[j] in d.nodes
                         ==> !Matches(d.nodes[d.order[j]], sel)
    ensures QueryAll(d, sel) == [d.order[i]]
  {
    FilterSingle(d.order, x => x in d.nodes && Matches(d.nodes[x], sel), i);
  }

  /** `c.querySelector(sel) != null`: some proper descendant of `c` matches. */
  predicate HasMatchUnder(d: Document, c: NodeId, sel: Selector) {
    exists m :: m in d.nodes && Matches(d.nodes[m], sel) && c in Ancestors(d, m)
  }

  /** `c.querySelector(sel)`: the first matching proper descendant of `c` in
      document order. */
  function QueryFirstUnder(d: Document, c: NodeId, sel: Selector): (r: Option<NodeId>)
    ensures r.Some? ==> r.value in d.nodes && Matches(d.nodes[r.value], sel)
                        && c in Ancestors(d, r.value)
  {
    FirstOf(d.order, x => x in d.nodes && Matches(d.nodes[x], sel) && c in Ancestors(d, x))
  }

  /** The first element of `s` that `keep` accepts. */
  function FirstOf(s: seq<NodeId>, keep: NodeId -> bool): (r: Option<NodeId>)
    ensures r.Some? ==> r.value in s && keep(r.value)
    ensures r.None? ==> forall k :: 0 <= k < |s| ==> !keep(s[k])
    ensures r.Some? ==> exists k :: 0 <= k < |s| && s[k] == r.value
                                    && forall j :: 0 <= j < k ==> !keep(s[j])
  {
    if |s| == 0 then None
    else if keep(s[0]) then Some(s[0])
    else
      assert forall k :: 1 <= k < |s| ==> s[k] == s[1..][k - 1];
      FirstOf(s[1..], keep)
  }
}

=== FILE: download_pipeline.dfy ===
/**
 * The background worker's download resolution (`handleDownload`,
 * `tryGraphQLFallback` and the `onMessage` handler), with the browser's
 * effects replaced by their outcomes: the primary media-info response, the
 * GraphQL fallback response and the download dispatch are parameters, and the
 * requests the worker issues are returned as a trace beside the reply.
 */
module DownloadPipeline {
  import opened Wrappers
  import opened Text
  import Shortcode
  import opened ShortcodeUrl
  import opened MediaInfo

  /** A value thrown inside the worker: an `Error` with its message, or any other value. */
  datatype Thrown = ErrorObject(message: string) | OtherValue

  /** What `fetch` and then `response.json()` produce: a rejected fetch, a
      response that is not ok, an ok response whose body is not JSON, or an
      ok response with its parsed body. */
  datatype Fetched<B> =
    | FetchRejected(error: Thrown)
    | NotOk(status: int)
    | BadJson(error: Thrown)
    | Ok(body: B)

  /** The GraphQL body as far as the fallback reads it: `data.xdt_shortcode_media`. */
  datatype GraphQLMedia = GraphQLMedia(videoUrl: string)
  datatype GraphQLBody = GraphQLBody(media: Option<GraphQLMedia>)

  /** What `chrome.downloads.download` does with the request. */
  datatype Dispatch = Dispatched | DispatchRejected(error: Thrown)

  type Header = (string, string)

  /** A request the worker issues, in the order it issues them. */
  datatype Request =
    | MediaInfoRequest(pk: int, headers: seq<Header>)
    | GraphQLRequest(docId: string, shortcode: string, headers: seq<Header>)
    | DownloadCall(url: string, filename: string)

  /** The reply object `{success, downloadUrl?, error?}`. */
  datatype Reply = Reply(success: bool, downloadUrl: Option<string>, error: Option<string>)

  /** A whole invocation: the reply and the requests issued on the way. */
  datatype Run = Run(reply: Reply, requests: seq<Request>)

  const NoShortcodeMessage := "Could not extract shortcode from URL"
  const NoMediaMessage := "No media data in GraphQL response. Try logging in to Instagram."
  const NoVideoUrlMessage := "No video URL found in response"
  const GraphQLFailedPrefix := "GraphQL request failed: "
  const DocId := "8845758582119845"

  /** Headers of the media-info request; the fallback sends them too. */
  const ApiHeaders: seq<Header> := [
    ("X-IG-App-ID", "936619743392459"),
    ("X-ASBD-ID", "198387"),
    ("X-IG-WWW-Claim", "0"),
    ("Origin", "https://www.instagram.com"),
    ("Accept", "*/*"),
    ("User-Agent", "Mozilla/5.0 (Windows NT 10.0; Win64; x64) AppleWebKit/537.36 (KHTML, like Gecko) Chrome/120.0.0.0 Safari/537.36")
  ]

  function RefererFor(shortcode: string): string {
    "https://www.instagram.com/reel/" + shortcode + "/"
  }

  function GraphQLHeaders(shortcode: string): seq<Header> {
    ApiHeaders + [("X-Requested-With", "XMLHttpRequest"), ("Referer", RefererFor(shortcode))]
  }

  /** `reel_{shortcode}_{now}.mp4`, with `Date.now()` passed in as `now`. */
  function Filename(shortcode: string, now: nat): string {
    "reel_" + shortcode + "_" + NatToString(now) + ".mp4"
  }

  function Succeeded(url: string): Reply {
    Reply(true, Some(url), None)
  }

  function Failed(message: string): Reply {
    Reply(false, None, Some(message))
  }

  /** The message a `catch` block reports: the error's own message, or `fallback`. */
  function CaughtMessage(e: Thrown, fallback: string): string {
    match e
    case ErrorObject(m) => m
    case OtherValue => fallback
  }

  /** Exactly one of a download URL and an error, as `success` says. */
  predicate WellFormedReply(r: Reply) {
    if r.success then r.downloadUrl.Some? && r.downloadUrl.value != "" && r.error.None?
    else r.downloadUrl.None? && r.error.Some?
  }

  /** The fallback request was issued: it is always the second request. */
  predicate FallbackIssued(run: Run) {
    |run.requests| >= 2 && run.requests[1].GraphQLRequest?
  }

  /** The number of download dispatches in a trace. */
  function DownloadCount(requests: seq<Request>): nat {
    if |requests| == 0 then 0
    else (if requests[0].DownloadCall? then 1 else 0) + DownloadCount(requests[1..])
  }

  /** The primary lookup gives the fallback its turn: the response is not ok,
      or its body yields no video URL. */
  predicate PrimaryYieldsNoUrl(primary: Fetched<InfoBody>) {
    primary.NotOk? || (primary.Ok? && ExtractVideoUrl(primary.body).None?)
  }

  /** `tryGraphQLFallback`. */
  function TryGraphQLFallback(shortcode: string, fallback: Fetched<GraphQLBody>, dispatch: Dispatch, now: nat): (run: Run)
    ensures WellFormedReply(run.reply)
    ensures 1 <= |run.requests| <= 2
    ensures run.requests[0] == GraphQLRequest(DocId, shortcode, GraphQLHeaders(shortcode))
    ensures forall k :: 1 <= k < |run.requests| ==> run.requests[k].DownloadCall?
    ensures fallback.NotOk? ==> run.reply == Failed(GraphQLFailedPrefix + IntToString(fallback.status))
    ensures fallback.Ok? && fallback.body.media.None? ==> run.reply == Failed(NoMediaMessage)
    ensures fallback.Ok? && fallback.body.media.Some? && fallback.body.media.value.videoUrl == "" ==>
              run.reply == Failed(NoVideoUrlMessage)
    ensures fallback.Ok? && fallback.body.media.Some? && fallback.body.media.value.videoUrl != "" ==>
              var url := fallback.body.media.value.videoUrl;
              run.requests == [run.requests[0], DownloadCall(url, Filename(shortcode, now))]
              && run.reply == (if dispatch.Dispatched? then Succeeded(url)
                               else Failed(CaughtMessage(dispatch.error, "GraphQL fallback failed")))
    ensures (fallback.FetchRejected? || fallback.BadJson?) ==>
              run.reply == Failed(CaughtMessage(fallback.error, "GraphQL fallback failed"))
    ensures run.reply.success <==> |run.requests| == 2 && dispatch.Dispatched?
  {
    var request := GraphQLRequest(DocId, shortcode, GraphQLHeaders(shortcode));
    match fallback
    case FetchRejected(e) => Run(Failed(CaughtMessage(e, "GraphQL fallback failed")), [request])
    case NotOk(status) => Run(Failed(GraphQLFailedPrefix + IntToString(status)), [request])
    case BadJson(e) => Run(Failed(CaughtMessage(e, "GraphQL fallback failed")), [request])
    case Ok(body) =>
      match body.media
      case None => Run(Failed(NoMediaMessage), [request])
      case Some(media) =>
        if media.videoUrl == "" then Run(Failed(NoVideoUrlMessage), [request])
        else
          var download := DownloadCall(media.videoUrl, Filename(shortcode, now));
          match dispatch
          case Dispatched => Run(Succeeded(media.videoUrl), [request, download])
          case DispatchRejected(e) =>
            Run(Failed(CaughtMessage(e, "GraphQL fallback failed")), [request, download])
  }

  /** `handleDownload`. */
  function HandleDownload(
    reelUrl: string, primary: Fetched<InfoBody>, fallback: Fetched<GraphQLBody>,
    dispatch: Dispatch, now: nat): (run: Run)
    ensures WellFormedReply(run.reply)
    ensures ExtractShortcode(reelUrl).None? ==> run == Run(Failed(NoShortcodeMessage), [])
    ensures ExtractShortcode(reelUrl).Some? ==>
              var shortcode := ExtractShortcode(reelUrl).value;
              && 1 <= |run.requests| <= 3
              && run.requests[0] == MediaInfoRequest(Shortcode.ShortcodeToPk(shortcode), ApiHeaders)
              && (FallbackIssued(run) <==> PrimaryYieldsNoUrl(primary))
              && (FallbackIssued(run) ==>
                    run == Run(TryGraphQLFallback(shortcode, fallback, dispatch, now).reply,
                               [run.requests[0]] + TryGraphQLFallback(shortcode, fallback, dispatch, now).requests))
              && (primary.Ok? && ExtractVideoUrl(primary.body).Some? ==>
                    var url := ExtractVideoUrl(primary.body).value;
                    run.requests == [run.requests[0], DownloadCall(url, Filename(shortcode, now))]
                    && run.reply == (if dispatch.Dispatched? then Succeeded(url)
                                     else Failed(CaughtMessage(dispatch.error, "Unknown error"))))
              && ((primary.FetchRejected? || primary.BadJson?) ==>
                    run == Run(Failed(CaughtMessage(primary.error, "Unknown error")), [run.requests[0]]))
    ensures forall k :: 0 <= k < |run.requests| && run.requests[k].GraphQLRequest? ==> k == 1
    ensures run.reply.success ==>
              dispatch.Dispatched?
              && run.requests[|run.requests| - 1].DownloadCall?
              && run.requests[|run.requests| - 1].url == run.reply.downloadUrl.value
  {
    match ExtractShortcode(reelUrl)
    case None => Run(Failed(NoShortcodeMessage), [])
    case Some(shortcode) =>
      var info := MediaInfoRequest(Shortcode.ShortcodeToPk(shortcode), ApiHeaders);
      match primary
      case FetchRejected(e) => Run(Failed(CaughtMessage(e, "Unknown error")), [info])
      case NotOk(_) => WithPrimary(info, TryGraphQLFallback(shortcode, fallback, dispatch, now))
      case BadJson(e) => Run(Failed(CaughtMessage(e, "Unknown error")), [info])
      case Ok(body) =>
        match ExtractVideoUrl(body)
        case None => WithPrimary(info, TryGraphQLFallback(shortcode, fallback, dispatch, now))
        case Some(url) =>
          var download := DownloadCall(url, Filename(shortcode, now));
          match dispatch
          case Dispatched => Run(Succeeded(url), [info, download])
          case DispatchRejected(e) => Run(Failed(CaughtMessage(e, "Unknown error")), [info, download])
  }

  /** The fallback's run, preceded by the primary request that led to it. */
  function WithPrimary(info: Request, fallbackRun: Run): Run {
    Run(fallbackRun.reply, [info] + fallbackRun.requests)
  }

  /** The extension's message shape `{type, url}`. */
  datatype Message = Message(kind: string, url: string)

  const DownloadReelType := "DOWNLOAD_REEL"

  /** The `onMessage` listener: a `DOWNLOAD_REEL` message gets exactly one
      reply, the result of `handleDownload` on its URL; any other message
      gets none. */
  function OnMessage(
    message: Message, primary: Fetched<InfoBody>, fallback: Fetched<GraphQLBody>,
    dispatch: Dispatch, now: nat): (reply: Option<Reply>)
    ensures message.kind != DownloadReelType ==> reply.None?
    ensures message.kind == DownloadReelType ==>
              reply == Some(HandleDownload(message.url, primary, fallback, dispatch, now).reply)
              && WellFormedReply(reply.value)
  {
    if message.kind == DownloadReelType
    then Some(HandleDownload(message.url, primary, fallback, dispatch, now).reply)
    else None
  }

  // ---------------------------------------------------------------------
  // Properties relating several parts of the pipeline.

  /** The fallback request carries a `Referer` naming the shortcode. */
  lemma FallbackRefererNamesShortcode(shortcode: string, fallback: Fetched<GraphQLBody>, dispatch: Dispatch, now: nat)
    ensures var request := TryGraphQLFallback(shortcode, fallback, dispatch, now).requests[0];
            exists k :: 0 <= k < |request.headers| && request.headers[k].0 == "Referer"
              && Contains(request.headers[k].1, shortcode)
  {
    var request := TryGraphQLFallback(shortcode, fallback, dispatch, now).requests[0];
    var k := |ApiHeaders| + 1;
    assert request.headers[k] == ("Referer", RefererFor(shortcode));
    ContainsMiddle("https://www.instagram.com/reel/", shortcode, "/");
  }

  lemma {:induction false} DownloadCountAppend(a: seq<Request>, b: seq<Request>)
    ensures DownloadCount(a + b) == DownloadCount(a) + DownloadCount(b)
    decreases |a|
  {
    if |a| == 0 {
      assert a + b == b;
    } else {
      assert (a + b)[0] == a[0];
      assert (a + b)[1..] == a[1..] + b;
      DownloadCountAppend(a[1..], b);
    }
  }

  /** One invocation issues at most one primary request, at most one fallback
      request and at most one download, and succeeds only by a download. */
  lemma {:induction false} AtMostOneOfEachRequest(
    reelUrl: string, primary: Fetched<InfoBody>, fallback: Fetched<GraphQLBody>,
    dispatch: Dispatch, now: nat)
    ensures var run := HandleDownload(reelUrl, primary, fallback, dispatch, now);
            && DownloadCount(run.requests) <= 1
            && (run.reply.success ==> DownloadCount(run.requests) == 1)
            && (forall k :: 0 <= k < |run.requests| && run.requests[k].MediaInfoRequest? ==> k == 0)
  {
    var run := HandleDownload(reelUrl, primary, fallback, dispatch, now);
    if ExtractShortcode(reelUrl).Some? {
      var shortcode := ExtractShortcode(reelUrl).value;
      var rs := run.requests;
      if FallbackIssued(run) {
        var fb := TryGraphQLFallback(shortcode, fallback, dispatch, now);
        DownloadCountAppend([rs[0]], fb.requests);
        DownloadCountAppend([fb.requests[0]], fb.requests[1..]);
        assert [fb.requests[0]] + fb.requests[1..] == fb.requests;
        if |fb.requests| == 2 {
          assert fb.requests[1..] == [fb.requests[1]];
        } else {
          assert fb.requests[1..] == [];
        }
      } else if |rs| == 2 {
        DownloadCountAppend([rs[0]], [rs[1]]);
        assert [rs[0]] + [rs[1]] == rs;
      }
    }
  }

  /** A primary response that is ok with a playable URL settles the request
      without any fallback: success with that URL once the download starts. */
  lemma PrimaryUrlSkipsFallback(
    reelUrl: string, body: InfoBody, fallback: Fetched<GraphQLBody>, now: nat)
    requires ExtractShortcode(reelUrl).Some?
    requires ExtractVideoUrl(body).Some?
    ensures var run := HandleDownload(reelUrl, Ok(body), fallback, Dispatched, now);
            && run.reply == Succeeded(ExtractVideoUrl(body).value)
            && !FallbackIssued(run)
            && forall k :: 0 <= k < |run.requests| ==> !run.requests[k].GraphQLRequest?
  {
  }

  /** A primary response that is ok but carries no video settles exactly as
      the fallback does, whatever the primary body held. */
  lemma NoVideoInPrimaryDefersToFallback(
    reelUrl: string, body: InfoBody, fallback: Fetched<GraphQLBody>, dispatch: Dispatch, now: nat)
    requires ExtractShortcode(reelUrl).Some?
    requires ExtractVideoUrl(body).None?
    ensures HandleDownload(reelUrl, Ok(body), fallback, dispatch, now).reply
            == HandleDownload(reelUrl, NotOk(404), fallback, dispatch, now).reply
            == TryGraphQLFallback(ExtractShortcode(reelUrl).value, fallback, dispatch, now).reply
  {
  }
}

=== FILE: injection.dfy ===
/**
 * Injecting the extension's controls block into action containers
 * (`injectControlsToContainer` and `injectControlsToAllContainers`).
 *
 * The block is modelled as one `div` element carrying the controls class,
 * inserted as the container's first child and placed right after the
 * container in document order. Its slider and buttons live in the page
 * state, keyed by the block's identity.
 */
module ControlsInjection {
  import opened Wrappers
  import opened Dom
  import opened ActionContainers
  import opened Routes

  /** `seq` `s` with `id` inserted right after the first `c` (at the end
      when `c` is absent). */
  function InsertAfter(s: seq<NodeId>, c: NodeId, id: NodeId): (r: seq<NodeId>)
    ensures c in s ==> var k := FirstIndex(s, c); r == s[..k + 1] + [id] + s[k + 1..]
    ensures c !in s ==> r == s + [id]
  {
    if |s| == 0 then [id]
    else if s[0] == c then [c, id] + s[1..]
    else
      var rest := InsertAfter(s[1..], c, id);
      assert c in s ==> s[..FirstIndex(s, c) + 1] == [s[0]] + s[1..][..FirstIndex(s[1..], c) + 1];
      [s[0]] + rest
  }

  lemma {:induction false} FilterConcat(a: seq<NodeId>, b: seq<NodeId>, keep: NodeId -> bool)
    ensures Filter(a + b, keep) == Filter(a, keep) + Filter(b, keep)
    decreases |a|
  {
    if |a| == 0 {
      assert a + b == b;
    } else {
      assert (a + b)[1..] == a[1..] + b;
      FilterConcat(a[1..], b, keep);
    }
  }

  /** Filtering out an inserted element that is not kept gives back the
      original filter. */
  lemma FilterInsertAfter(s: seq<NodeId>, c: NodeId, id: NodeId, keep: NodeId -> bool)
    requires !keep(id)
    ensures Filter(InsertAfter(s, c, id), keep) == Filter(s, keep)
  {
    if c in s {
      var k := FirstIndex(s, c);
      assert s == s[..k + 1] + s[k + 1..];
      FilterConcat(s[..k + 1] + [id], s[k + 1..], keep);
      FilterConcat(s[..k + 1], [id], keep);
      FilterConcat(s[..k + 1], s[k + 1..], keep);
    } else {
      FilterConcat(s, [id], keep);
    }
  }

  /** Filters that agree on `s` select the same elements of `s`. */
  lemma {:induction false} FilterCongruence(s: seq<NodeId>, k1: NodeId -> bool, k2: NodeId -> bool)
    requires forall i :: 0 <= i < |s| ==> k1(s[i]) == k2(s[i])
    ensures Filter(s, k1) == Filter(s, k2)
    decreases |s|
  {
    if |s| > 0 {
      assert forall i :: 1 <= i < |s| ==> s[i] == s[1..][i - 1];
      FilterCongruence(s[1..], k1, k2);
    }
  }

  /** Searches that agree on `s` find the same element of `s`. */
  lemma {:induction false} FirstOfCongruence(s: seq<NodeId>, k1: NodeId -> bool, k2: NodeId -> bool)
    requires forall i :: 0 <= i < |s| ==> k1(s[i]) == k2(s[i])
    ensures FirstOf(s, k1) == FirstOf(s, k2)
    decreases |s|
  {
    if |s| > 0 {
      assert forall i :: 1 <= i < |s| ==> s[i] == s[1..][i - 1];
      FirstOfCongruence(s[1..], k1, k2);
    }
  }

  /** The controls block for container `c`. */
  function ControlsBlock(d: Document, c: NodeId): (e: Element)
    requires c in d.nodes
    ensures Matches(e, ClassName(ControlsClass)) && e.parent == Some(c)
    ensures e.depth > d.nodes[c].depth && |e.children| == 0 && e.tag == ControlsTag
  {
    Element(ControlsTag, None, {ControlsClass}, Some(c), [], d.nodes[c].depth + 1, d.nodes[c].top, 0)
  }

  /** `c.insertBefore(e, c.firstChild)` for a new element `e`: it takes the
      next free identity and comes right after `c` in document order. */
  function InsertFirstChild(d: Document, c: NodeId, e: Element): (r: Document)
    requires c in d.nodes
    ensures r.nextId == d.nextId + 1 && r.body == d.body
    ensures r.nodes.Keys == d.nodes.Keys + {d.nextId}
    ensures r.nodes[d.nextId] == e
    ensures d.nextId != c ==> r.nodes[c].children == [d.nextId] + d.nodes[c].children
    ensures forall n :: n in d.nodes && n != c && n != d.nextId ==> r.nodes[n] == d.nodes[n]
    ensures r.order == InsertAfter(d.order, c, d.nextId)
  {
    var id := d.nextId;
    var p := d.nodes[c];
    Document(d.nodes[c := p.(children := [id] + p.children)][id := e],
             InsertAfter(d.order, c, id), d.body, id + 1)
  }

  /** `e` is a fresh leaf that may hang under `c`. */
  predicate NewChildOf(d: Document, c: NodeId, e: Element) {
    c in d.nodes && e.parent == Some(c) && e.depth > d.nodes[c].depth && |e.children| == 0
  }

  /** `container.insertBefore(controlsContainer, container.firstChild)`. */
  function InsertControls(d: Document, c: NodeId): (r: Document)
    requires c in d.nodes
    ensures r.nextId == d.nextId + 1 && r.body == d.body
    ensures r.nodes.Keys == d.nodes.Keys + {d.nextId}
    ensures r.nodes[d.nextId] == ControlsBlock(d, c)
    ensures d.nextId != c ==> r.nodes[c].children == [d.nextId] + d.nodes[c].children
    ensures forall n :: n in d.nodes && n != c && n != d.nextId ==> r.nodes[n] == d.nodes[n]
  {
    InsertFirstChild(d, c, ControlsBlock(d, c))
  }

  /** Every old element keeps its tag, label, classes, parent and depth. */
  predicate KeepsOldElements(d: Document, r: Document)
  {
    forall n :: n in d.nodes ==>
      && n in r.nodes
      && r.nodes[n].tag == d.nodes[n].tag
      && r.nodes[n].ariaLabel == d.nodes[n].ariaLabel
      && r.nodes[n].classes == d.nodes[n].classes
      && r.nodes[n].parent == d.nodes[n].parent
      && r.nodes[n].depth == d.nodes[n].depth
  }

  lemma InsertChildKeepsOld(d: Document, c: NodeId, e: Element)
    requires WellFormed(d) && c in d.nodes
    ensures KeepsOldElements(d, InsertFirstChild(d, c, e))
  {
  }

  lemma InsertControlsKeepsOld(d: Document, c: NodeId)
    requires WellFormed(d) && c in d.nodes
    ensures KeepsOldElements(d, InsertControls(d, c))
  {
    InsertChildKeepsOld(d, c, ControlsBlock(d, c));
  }

  /** Parent links of old elements are unchanged by an insertion. */
  lemma InsertChildKeepsParentOf(d: Document, c: NodeId, e: Element, n: NodeId)
    requires WellFormed(d) && c in d.nodes && n != d.nextId
    ensures ParentOf(InsertFirstChild(d, c, e), n) == ParentOf(d, n)
  {
    InsertChildKeepsOld(d, c, e);
    if n in d.nodes {
      assert ParentOf(d, n) == d.nodes[n].parent;
    }
  }

  lemma InsertKeepsParentOf(d: Document, c: NodeId, n: NodeId)
    requires WellFormed(d) && c in d.nodes && n != d.nextId
    ensures ParentOf(InsertControls(d, c), n) == ParentOf(d, n)
  {
    InsertChildKeepsParentOf(d, c, ControlsBlock(d, c), n);
  }

  /** The ancestors of old elements are unchanged by an insertion. */
  lemma {:induction false} InsertChildKeepsAncestors(d: Document, c: NodeId, e: Element, n: NodeId)
    requires WellFormed(d) && c in d.nodes && n != d.nextId
    ensures Ancestors(InsertFirstChild(d, c, e), n) == Ancestors(d, n)
    decreases if n in d.nodes then d.nodes[n].depth + 1 else 0
  {
    InsertChildKeepsParentOf(d, c, e, n);
    match ParentOf(d, n)
    case None =>
    case Some(p) =>
      assert p in d.nodes;
      InsertChildKeepsAncestors(d, c, e, p);
  }

  lemma InsertKeepsAncestors(d: Document, c: NodeId, n: NodeId)
    requires WellFormed(d) && c in d.nodes && n != d.nextId
    ensures Ancestors(InsertControls(d, c), n) == Ancestors(d, n)
  {
    InsertChildKeepsAncestors(d, c, ControlsBlock(d, c), n);
  }

  /** The new block sits directly under the container. */
  lemma InsertedBlockAncestors(d: Document, c: NodeId)
    requires WellFormed(d) && c in d.nodes
    ensures Ancestors(InsertControls(d, c), d.nextId) == [c] + Ancestors(d, c)
  {
    var r := InsertControls(d, c);
    assert c != d.nextId;
    assert ParentOf(r, d.nextId) == Some(c);
    InsertKeepsAncestors(d, c, c);
  }

  /** After the insertion the container has a controls block under it. */
  lemma InsertGivesControls(d: Document, c: NodeId)
    requires WellFormed(d) && c in d.nodes
    ensures HasMatchUnder(InsertControls(d, c), c, ClassName(ControlsClass))
  {
    var r := InsertControls(d, c);
    InsertedBlockAncestors(d, c);
    assert c in Ancestors(r, d.nextId);
  }

  /** Inserting a fresh leaf keeps the document well formed. */
  lemma InsertChildKeepsWellFormed(d: Document, c: NodeId, e: Element)
    requires WellFormed(d) && NewChildOf(d, c, e)
    ensures WellFormed(InsertFirstChild(d, c, e))
  {
    InsertChildKeepsParentLinks(d, c, e);
    InsertChildKeepsChildLinks(d, c, e);
    InsertAfterMembers(d.order, c, d.nextId);
  }

  lemma InsertChildKeepsParentLinks(d: Document, c: NodeId, e: Element)
    requires WellFormed(d) && NewChildOf(d, c, e)
    ensures var r := InsertFirstChild(d, c, e);
            forall n :: n in r.nodes ==> ParentOf(r, n) == r.nodes[n].parent
  {
    var r := InsertFirstChild(d, c, e);
    forall n | n in r.nodes ensures ParentOf(r, n) == r.nodes[n].parent {
      if n == d.nextId {
        assert r.nodes[n].parent == Some(c);
      } else {
        InsertChildKeepsParentOf(d, c, e, n);
        assert ParentOf(d, n) == d.nodes[n].parent;
      }
    }
  }

  lemma InsertChildKeepsChildLinks(d: Document, c: NodeId, e: Element)
    requires WellFormed(d) && NewChildOf(d, c, e)
    ensures var r := InsertFirstChild(d, c, e);
            forall n, k :: n in r.nodes && 0 <= k < |r.nodes[n].children| ==>
              r.nodes[n].children[k] in r.nodes
              && r.nodes[r.nodes[n].children[k]].parent == Some(n)
  {
    var r := InsertFirstChild(d, c, e);
    forall n, k | n in r.nodes && 0 <= k < |r.nodes[n].children|
      ensures r.nodes[n].children[k] in r.nodes
      ensures r.nodes[r.nodes[n].children[k]].parent == Some(n)
    {
      if n == c && k > 0 {
        assert r.nodes[n].children[k] == d.nodes[c].children[k - 1];
      }
    }
  }

  lemma InsertKeepsWellFormed(d: Document, c: NodeId)
    requires WellFormed(d) && c in d.nodes
    ensures WellFormed(InsertControls(d, c))
  {
    InsertChildKeepsWellFormed(d, c, ControlsBlock(d, c));
  }

  lemma InsertAfterMembers(s: seq<NodeId>, c: NodeId, id: NodeId)
    ensures forall x :: x in InsertAfter(s, c, id) <==> x in s || x == id
  {
    if c in s {
      var k := FirstIndex(s, c);
      assert s == s[..k + 1] + s[k + 1..];
    }
  }

  /** After inserting `e`, a selector selects what it selected before, and
      `e` when `e` matches it. */
  lemma InsertChildQueryAll(d: Document, c: NodeId, e: Element, sel: Selector)
    requires WellFormed(d) && c in d.nodes
    ensures forall x :: x in QueryAll(InsertFirstChild(d, c, e), sel) <==>
                        x in QueryAll(d, sel) || (x == d.nextId && Matches(e, sel))
  {
    var r := InsertFirstChild(d, c, e);
    InsertChildKeepsOld(d, c, e);
    InsertAfterMembers(d.order, c, d.nextId);
    assert d.nextId !in d.nodes;
  }

  /** Two documents whose orders differ by one inserted identity that the
      selector rejects, and that agree on the selector everywhere else,
      give the same `querySelectorAll`. */
  lemma QueryAllIgnoresInserted(d: Document, r: Document, c: NodeId, id: NodeId, sel: Selector)
    requires r.order == InsertAfter(d.order, c, id)
    requires id in r.nodes && !Matches(r.nodes[id], sel)
    requires forall x :: x in d.order ==>
               (x in r.nodes && Matches(r.nodes[x], sel)) == (x in d.nodes && Matches(d.nodes[x], sel))
    ensures QueryAll(r, sel) == QueryAll(d, sel)
  {
    var keepR := x => x in r.nodes && Matches(r.nodes[x], sel);
    var keepD := x => x in d.nodes && Matches(d.nodes[x], sel);
    FilterInsertAfter(d.order, c, id, keepR);
    forall i | 0 <= i < |d.order| ensures keepR(d.order[i]) == keepD(d.order[i]) {
      assert d.order[i] in d.order;
    }
    FilterCongruence(d.order, keepR, keepD);
  }

  /** A selector the new element does not match selects the same elements. */
  lemma InsertChildKeepsQueryAll(d: Document, c: NodeId, e: Element, sel: Selector)
    requires WellFormed(d) && c in d.nodes && !Matches(e, sel)
    ensures QueryAll(InsertFirstChild(d, c, e), sel) == QueryAll(d, sel)
  {
    var r := InsertFirstChild(d, c, e);
    InsertChildKeepsOld(d, c, e);
    forall x | x in d.order
      ensures (x in r.nodes && Matches(r.nodes[x], sel)) == (x in d.nodes && Matches(d.nodes[x], sel))
    {
      assert x in d.nodes;
    }
    QueryAllIgnoresInserted(d, r, c, d.nextId, sel);
  }

  lemma InsertKeepsQueryAll(d: Document, c: NodeId, sel: Selector)
    requires WellFormed(d) && c in d.nodes
    requires !Matches(ControlsBlock(d, c), sel)
    ensures QueryAll(InsertControls(d, c), sel) == QueryAll(d, sel)
  {
    InsertChildKeepsQueryAll(d, c, ControlsBlock(d, c), sel);
  }

  /** Like/Comment/Share/Save icons under any element are unchanged. */
  lemma InsertKeepsLabeledSvg(d: Document, c: NodeId, x: NodeId, l: string)
    requires WellFormed(d) && c in d.nodes
    ensures HasMatchUnder(InsertControls(d, c), x, LabeledSvg(l)) == HasMatchUnder(d, x, LabeledSvg(l))
  {
    var r := InsertControls(d, c);
    InsertControlsKeepsOld(d, c);
    if HasMatchUnder(r, x, LabeledSvg(l)) {
      var m :| m in r.nodes && Matches(r.nodes[m], LabeledSvg(l)) && x in Ancestors(r, m);
      assert m != d.nextId;
      InsertKeepsAncestors(d, c, m);
    }
    if HasMatchUnder(d, x, LabeledSvg(l)) {
      var m :| m in d.nodes && Matches(d.nodes[m], LabeledSvg(l)) && x in Ancestors(d, m);
      InsertKeepsAncestors(d, c, m);
      assert Matches(r.nodes[m], LabeledSvg(l));
    }
  }

  /** Inserting into an action container neither makes nor unmakes one. */
  lemma InsertKeepsContainers(d: Document, c: NodeId, x: NodeId)
    requires WellFormed(d) && IsActionContainer(d, c)
    ensures IsActionContainer(InsertControls(d, c), x) == IsActionContainer(d, x)
  {
    InsertKeepsLabeledSvg(d, c, x, "Like");
    InsertKeepsLabeledSvg(d, c, x, "Comment");
    InsertKeepsLabeledSvg(d, c, x, "Share");
    InsertKeepsLabeledSvg(d, c, x, "Save");
  }

  /** The elements examined from an old element are unchanged. */
  lemma InsertKeepsExamined(d: Document, c: NodeId, like: NodeId)
    requires WellFormed(d) && c in d.nodes && like != d.nextId
    ensures Examined(InsertControls(d, c), like) == Examined(d, like)
  {
    InsertKeepsParentOf(d, c, like);
    match ParentOf(d, like)
    case None =>
    case Some(p) =>
      var r := InsertControls(d, c);
      assert p != d.nextId && ParentOf(r, like) == Some(p);
      InsertKeepsAncestors(d, c, p);
      assert UntilBody(r.body, Ancestors(r, p)) == UntilBody(d.body, Ancestors(d, p));
      assert Chain(r, p) == Chain(d, p);
  }

  /** The container found from an old element is unchanged. */
  lemma InsertKeepsFinding(d: Document, c: NodeId, like: NodeId)
    requires WellFormed(d) && IsActionContainer(d, c) && like != d.nextId
    ensures FindActionContainerFromLikeButton(InsertControls(d, c), like)
            == FindActionContainerFromLikeButton(d, like)
  {
    var r := InsertControls(d, c);
    var s := Examined(d, like);
    InsertKeepsExamined(d, c, like);
    forall i | 0 <= i < |s| ensures ContainerTest(r)(s[i]) == ContainerTest(d)(s[i]) {
      InsertKeepsContainers(d, c, s[i]);
    }
    FirstOfCongruence(s, ContainerTest(r), ContainerTest(d));
  }

  lemma {:induction false} InsertKeepsCandidates(d: Document, c: NodeId, likes: seq<NodeId>)
    requires WellFormed(d) && IsActionContainer(d, c)
    requires forall k :: 0 <= k < |likes| ==> likes[k] != d.nextId
    ensures Candidates(InsertControls(d, c), likes) == Candidates(d, likes)
    decreases |likes|
  {
    if |likes| > 0 {
      InsertKeepsCandidates(d, c, likes[..|likes| - 1]);
      InsertKeepsFinding(d, c, likes[|likes| - 1]);
    }
  }

  /** Inserting controls into a container does not change which containers
      a later scan finds, nor their order. */
  lemma InsertKeepsFindAll(d: Document, c: NodeId)
    requires WellFormed(d) && IsActionContainer(d, c)
    ensures FindAllActionContainers(InsertControls(d, c)) == FindAllActionContainers(d)
  {
    var r := InsertControls(d, c);
    InsertKeepsQueryAll(d, c, LabeledSvg("Like"));
    var likes := LikeButtons(d);
    assert LikeButtons(r) == likes;
    forall k | 0 <= k < |likes| ensures likes[k] != d.nextId {
      assert likes[k] in likes;
    }
    InsertKeepsCandidates(d, c, likes);
    CollectIsDedup(r, likes);
    CollectIsDedup(d, likes);
    assert CollectContainers(r, likes) == CollectContainers(d, likes);
  }

  /** A match under `x` stays a match after an insertion. */
  lemma InsertChildKeepsMatchUnder(d: Document, c: NodeId, e: Element, x: NodeId, sel: Selector)
    requires WellFormed(d) && c in d.nodes && HasMatchUnder(d, x, sel)
    ensures HasMatchUnder(InsertFirstChild(d, c, e), x, sel)
  {
    var r := InsertFirstChild(d, c, e);
    InsertChildKeepsOld(d, c, e);
    var m :| m in d.nodes && Matches(d.nodes[m], sel) && x in Ancestors(d, m);
    InsertChildKeepsAncestors(d, c, e, m);
    assert Matches(r.nodes[m], sel);
  }

  lemma InsertKeepsMatchUnder(d: Document, c: NodeId, x: NodeId, sel: Selector)
    requires WellFormed(d) && c in d.nodes && HasMatchUnder(d, x, sel)
    ensures HasMatchUnder(InsertControls(d, c), x, sel)
  {
    InsertChildKeepsMatchUnder(d, c, ControlsBlock(d, c), x, sel);
  }

  // ---------------------------------------------------------------------
  // injectControlsToContainer / injectControlsToAllContainers

  /** The document, the containers marked processed, and the controls blocks
      created so far, oldest first. */
  datatype Injection = Injection(doc: Document, processed: set<NodeId>, created: seq<NodeId>)

  predicate HasControls(d: Document, c: NodeId) {
    HasMatchUnder(d, c, ClassName(ControlsClass))
  }

  /** `injectControlsToContainer`: a processed container is left alone; one
      that already holds controls is only marked; any other gets a new
      block and is marked. */
  function InjectControlsToContainer(st: Injection, c: NodeId): (r: Injection)
    requires c in st.doc.nodes
    ensures r.processed == st.processed + {c}
    ensures st.doc.nodes.Keys <= r.doc.nodes.Keys
    ensures c in st.processed || HasControls(st.doc, c) ==> r.doc == st.doc && r.created == st.created
    ensures c !in st.processed && !HasControls(st.doc, c) ==>
              && r.doc == InsertControls(st.doc, c)
              && r.created == st.created + [st.doc.nextId]
  {
    if c in st.processed then st
    else if HasControls(st.doc, c) then st.(processed := st.processed + {c})
    else Injection(InsertControls(st.doc, c), st.processed + {c}, st.created + [st.doc.nextId])
  }

  /** Once injected, injecting into the same container again does nothing. */
  lemma InjectIsIdempotent(st: Injection, c: NodeId)
    requires c in st.doc.nodes
    ensures InjectControlsToContainer(InjectControlsToContainer(st, c), c)
            == InjectControlsToContainer(st, c)
  {
  }

  /** Every container not yet processed holds controls after the call. */
  lemma InjectGivesControls(st: Injection, c: NodeId)
    requires WellFormed(st.doc) && c in st.doc.nodes && c !in st.processed
    ensures HasControls(InjectControlsToContainer(st, c).doc, c)
  {
    if !HasControls(st.doc, c) {
      InsertGivesControls(st.doc, c);
    }
  }

  /** Every processed container holds controls. */
  predicate ProcessedHaveControls(st: Injection) {
    forall c :: c in st.processed ==> c in st.doc.nodes && HasControls(st.doc, c)
  }

  /** In a well-formed document a selector that selects nothing matches
      under no element. */
  lemma NoneSelectedNoneUnder(d: Document, c: NodeId, sel: Selector)
    requires WellFormed(d) && |QueryAll(d, sel)| == 0
    ensures !HasMatchUnder(d, c, sel)
  {
    forall m | m in d.nodes ensures !Matches(d.nodes[m], sel) {
      assert m in d.order;
    }
  }

  /** The first injection into a container of a document that holds no
      controls yet keeps the document well formed, gives the container its
      block, and adds no element of any other tag. */
  lemma FirstInjection(d: Document, c: NodeId, tag: string)
    requires WellFormed(d) && c in d.nodes && tag != ControlsTag
    requires |QueryAll(d, ClassName(ControlsClass))| == 0
    requires |QueryAll(d, TagName(tag))| == 0
    ensures var st := InjectControlsToContainer(Injection(d, {}, []), c);
            && WellFormed(st.doc) && ProcessedHaveControls(st)
            && st.processed == {c} && st.created == [d.nextId]
            && |QueryAll(st.doc, TagName(tag))| == 0
  {
    NoneSelectedNoneUnder(d, c, ClassName(ControlsClass));
    var st := InjectControlsToContainer(Injection(d, {}, []), c);
    assert st.doc == InsertControls(d, c) && st.processed == {c};
    InsertKeepsWellFormed(d, c);
    InsertGivesControls(d, c);
    InsertKeepsQueryAll(d, c, TagName(tag));
    assert c in st.doc.nodes && HasControls(st.doc, c);
  }

  /** One injection into an action container keeps the document well formed,
      keeps the processed containers' controls, and changes neither which
      elements are action containers nor what a scan finds. */
  lemma InjectStep(st: Injection, c: NodeId)
    requires WellFormed(st.doc) && IsActionContainer(st.doc, c) && ProcessedHaveControls(st)
    ensures var r := InjectControlsToContainer(st, c);
            && WellFormed(r.doc)
            && ProcessedHaveControls(r)
            && FindAllActionContainers(r.doc) == FindAllActionContainers(st.doc)
            && forall x :: IsActionContainer(r.doc, x) == IsActionContainer(st.doc, x)
  {
    if c !in st.processed && !HasControls(st.doc, c) {
      var r := InjectControlsToContainer(st, c);
      assert r.doc == InsertControls(st.doc, c) && r.processed == st.processed + {c};
      InsertIntoContainer(st.doc, c, st.processed);
    }
  }

  /** The document-level half of `InjectStep`. */
  lemma InsertIntoContainer(d: Document, c: NodeId, ps: set<NodeId>)
    requires WellFormed(d) && IsActionContainer(d, c)
    requires forall p :: p in ps ==> p in d.nodes && HasControls(d, p)
    ensures var r := InsertControls(d, c);
            && WellFormed(r)
            && FindAllActionContainers(r) == FindAllActionContainers(d)
            && (forall x :: IsActionContainer(r, x) == IsActionContainer(d, x))
            && (forall p :: p in ps + {c} ==> p in r.nodes && HasControls(r, p))
  {
    InsertKeepsWellFormed(d, c);
    InsertKeepsFindAll(d, c);
    InsertGivesControls(d, c);
    InsertKeepsAllContainers(d, c);
    InsertKeepsHasControls(d, c, ps);
  }

  lemma InsertKeepsAllContainers(d: Document, c: NodeId)
    requires WellFormed(d) && IsActionContainer(d, c)
    ensures forall x :: IsActionContainer(InsertControls(d, c), x) == IsActionContainer(d, x)
  {
    forall x ensures IsActionContainer(InsertControls(d, c), x) == IsActionContainer(d, x) {
      InsertKeepsContainers(d, c, x);
    }
  }

  lemma InsertKeepsHasControls(d: Document, c: NodeId, ps: set<NodeId>)
    requires WellFormed(d) && c in d.nodes
    requires forall p :: p in ps ==> p in d.nodes && HasControls(d, p)
    ensures forall p :: p in ps ==> p in InsertControls(d, c).nodes && HasControls(InsertControls(d, c), p)
  {
    forall p | p in ps ensures HasControls(InsertControls(d, c), p) {
      InsertKeepsMatchUnder(d, c, p, ClassName(ControlsClass));
    }
  }

  /** The loop of `injectControlsToAllContainers`, in the given order. */
  function InjectAll(st: Injection, cs: seq<NodeId>): (r: Injection)
    requires forall c :: c in cs ==> c in st.doc.nodes
    ensures forall x :: x in r.processed <==> x in st.processed || x in cs
    ensures st.doc.nodes.Keys <= r.doc.nodes.Keys
    ensures st.created <= r.created
    decreases |cs|
  {
    if |cs| == 0 then st
    else InjectAll(InjectControlsToContainer(st, cs[0]), cs[1..])
  }

  /** The loop over a single container is one injection. */
  lemma InjectAllOne(st: Injection, c: NodeId)
    requires c in st.doc.nodes
    ensures InjectAll(st, [c]) == InjectControlsToContainer(st, c)
  {
  }

  /** Containers already processed are skipped entirely. */
  lemma {:induction false} InjectAllProcessedNoop(st: Injection, cs: seq<NodeId>)
    requires forall c :: c in cs ==> c in st.doc.nodes && c in st.processed
    ensures InjectAll(st, cs) == st
    decreases |cs|
  {
    if |cs| > 0 {
      InjectAllProcessedNoop(st, cs[1..]);
    }
  }

  lemma {:induction false} InjectAllKeeps(st: Injection, cs: seq<NodeId>)
    requires WellFormed(st.doc) && ProcessedHaveControls(st)
    requires forall c :: c in cs ==> c in st.doc.nodes && IsActionContainer(st.doc, c)
    ensures var r := InjectAll(st, cs);
            && WellFormed(r.doc)
            && ProcessedHaveControls(r)
            && FindAllActionContainers(r.doc) == FindAllActionContainers(st.doc)
    decreases |cs|
  {
    if |cs| > 0 {
      var next := InjectControlsToContainer(st, cs[0]);
      InjectStep(st, cs[0]);
      var rest := cs[1..];
      forall x | x in rest ensures x in next.doc.nodes && IsActionContainer(next.doc, x) {
        assert x in cs;
      }
      InjectAllKeeps(next, rest);
      assert InjectAll(st, cs) == InjectAll(next, rest);
    }
  }

  /** Injecting keeps the document well formed and adds no element of any
      tag but the controls block's: `querySelectorAll` of another tag
      selects what it selected before. */
  lemma {:induction false} InjectAllKeepsTag(st: Injection, cs: seq<NodeId>, tag: string)
    requires WellFormed(st.doc) && tag != ControlsTag
    requires forall c :: c in cs ==> c in st.doc.nodes
    ensures var r := InjectAll(st, cs);
            && WellFormed(r.doc)
            && QueryAll(r.doc, TagName(tag)) == QueryAll(st.doc, TagName(tag))
    decreases |cs|
  {
    if |cs| > 0 {
      var next := InjectControlsToContainer(st, cs[0]);
      if cs[0] !in st.processed && !HasControls(st.doc, cs[0]) {
        InsertKeepsWellFormed(st.doc, cs[0]);
        InsertKeepsQueryAll(st.doc, cs[0], TagName(tag));
      }
      var rest := cs[1..];
      forall x | x in rest ensures x in next.doc.nodes {
        assert x in cs;
      }
      InjectAllKeepsTag(next, rest, tag);
      assert InjectAll(st, cs) == InjectAll(next, rest);
    }
  }

  /** `injectControlsToAllContainers`: only on a Reels route, inject into
      every container a scan finds. */
  function ScanAndInject(path: string, st: Injection): (r: Injection)
    ensures !OnReelsRoute(path) ==> r == st
    ensures st.created <= r.created && st.processed <= r.processed
  {
    if !OnReelsRoute(path) then st
    else
      InjectAll(st, FindAllActionContainers(st.doc))
  }

  /** After a scan on a Reels route every container found is marked
      processed and holds controls, and a new scan finds the same ones. */
  lemma ScanGivesEveryContainerControls(path: string, st: Injection)
    requires WellFormed(st.doc) && ProcessedHaveControls(st)
    requires OnReelsRoute(path)
    ensures var r := ScanAndInject(path, st);
            && FindAllActionContainers(r.doc) == FindAllActionContainers(st.doc)
            && forall c :: c in FindAllActionContainers(st.doc) ==> c in r.processed && HasControls(r.doc, c)
  {
    InjectAllKeeps(st, FindAllActionContainers(st.doc));
  }

  /** A scan adds no element of any tag but the controls block's. */
  lemma ScanKeepsTag(path: string, st: Injection, tag: string)
    requires WellFormed(st.doc) && tag != ControlsTag
    ensures var r := ScanAndInject(path, st);
            && WellFormed(r.doc)
            && QueryAll(r.doc, TagName(tag)) == QueryAll(st.doc, TagName(tag))
  {
    if OnReelsRoute(path) {
      InjectAllKeepsTag(st, FindAllActionContainers(st.doc), tag);
    }
  }

  /** A second scan right after a first finds nothing left to do: each
      container receives its controls once. */
  lemma ScanTwiceIsScanOnce(path: string, st: Injection)
    requires WellFormed(st.doc) && ProcessedHaveControls(st)
    ensures ScanAndInject(path, ScanAndInject(path, st)) == ScanAndInject(path, st)
  {
    if OnReelsRoute(path) {
      var cs := FindAllActionContainers(st.doc);
      var r := InjectAll(st, cs);
      assert r == ScanAndInject(path, st);
      InjectAllKeeps(st, cs);
      assert FindAllActionContainers(r.doc) == cs;
      InjectAllProcessedNoop(r, cs);
      assert ScanAndInject(path, r) == InjectAll(r, cs);
    }
  }
}

=== FILE: media_info.dfy ===
/**
 * The media-info endpoint's JSON body, as far as `extractVideoUrl` reads it,
 * and the choice of video URL from it. A missing array is an empty sequence
 * and a missing or empty string field is "" (JavaScript treats both as falsy).
 */
module MediaInfo {
  import opened Wrappers

  datatype VideoVersion = VideoVersion(url: string)

  /** One entry of `carousel_media`. */
  datatype CarouselEntry = CarouselEntry(videoVersions: seq<VideoVersion>)

  /** One element of `items`. */
  datatype MediaItem = MediaItem(
    videoUrl: string,
    videoVersions: seq<VideoVersion>,
    carouselMedia: seq<CarouselEntry>)

  datatype InfoBody = InfoBody(items: seq<MediaItem>)

  /** A string field as the caller's truthiness test sees it. */
  function Truthy(s: string): (r: Option<string>)
    ensures r.Some? <==> s != ""
    ensures r.Some? ==> r.value == s
  {
    if s == "" then None else Some(s)
  }

  /** The carousel scan: the first video version of the first entry that has
      any. An empty URL there yields nothing; later entries are not tried. */
  function FirstCarouselUrl(entries: seq<CarouselEntry>): (r: Option<string>)
    ensures r.Some? ==> r.value != ""
    ensures (forall k :: 0 <= k < |entries| ==> |entries[k].videoVersions| == 0) ==> r.None?
    ensures forall k ::
              0 <= k < |entries| && |entries[k].videoVersions| > 0
              && (forall j :: 0 <= j < k ==> |entries[j].videoVersions| == 0)
              ==> r == Truthy(entries[k].videoVersions[0].url)
  {
    if |entries| == 0 then None
    else if |entries[0].videoVersions| > 0 then Truthy(entries[0].videoVersions[0].url)
    else
      var r := FirstCarouselUrl(entries[1..]);
      assert forall k :: 1 <= k < |entries| ==> entries[k] == entries[1..][k - 1];
      r
  }

  /** `extractVideoUrl`: only `items[0]` is read; its `video_url` is preferred,
      then `video_versions[0].url`, then the carousel scan. */
  function ExtractVideoUrl(body: InfoBody): (r: Option<string>)
    ensures |body.items| == 0 ==> r.None?
    ensures |body.items| > 0 && body.items[0].videoUrl != "" ==>
              r == Some(body.items[0].videoUrl)
    ensures |body.items| > 0 && body.items[0].videoUrl == ""
            && |body.items[0].videoVersions| > 0 ==>
              r == Truthy(body.items[0].videoVersions[0].url)
    ensures |body.items| > 0 && body.items[0].videoUrl == ""
            && |body.items[0].videoVersions| == 0 ==>
              r == FirstCarouselUrl(body.items[0].carouselMedia)
    ensures r.Some? ==> r.value != ""
  {
    if |body.items| == 0 then None
    else
      var item := body.items[0];
      if item.videoUrl != "" then Some(item.videoUrl)
      else if |item.videoVersions| > 0 then Truthy(item.videoVersions[0].url)
      else FirstCarouselUrl(item.carouselMedia)
  }

  /** Every URL the extraction returns is a field of `items[0]`. */
  ghost predicate FromFirstItem(body: InfoBody, url: string) {
    && |body.items| > 0
    && (|| url == body.items[0].videoUrl
        || (exists v :: v in body.items[0].videoVersions && v.url == url)
        || (exists e, v :: e in body.items[0].carouselMedia && v in e.videoVersions && v.url == url))
  }

  lemma {:induction false} CarouselUrlIsListed(entries: seq<CarouselEntry>)
    ensures FirstCarouselUrl(entries).Some? ==>
              exists e, v :: e in entries && v in e.videoVersions && v.url == FirstCarouselUrl(entries).value
  {
    if |entries| > 0 && |entries[0].videoVersions| == 0 {
      CarouselUrlIsListed(entries[1..]);
    } else if |entries| > 0 {
      assert entries[0].videoVersions[0] in entries[0].videoVersions;
    }
  }

  lemma ExtractedUrlIsFromFirstItem(body: InfoBody)
    ensures ExtractVideoUrl(body).Some? ==> FromFirstItem(body, ExtractVideoUrl(body).value)
  {
    if |body.items| > 0 {
      var item := body.items[0];
      if item.videoUrl == "" && |item.videoVersions| > 0 {
        assert item.videoVersions[0] in item.videoVersions;
      } else if item.videoUrl == "" {
        CarouselUrlIsListed(item.carouselMedia);
      }
    }
  }

  /** With both `video_url` and `video_versions` set, `video_url` wins. */
  lemma DirectUrlWinsExample()
    ensures ExtractVideoUrl(InfoBody([MediaItem("direct.mp4", [VideoVersion("v0.mp4")], [])]))
            == Some("direct.mp4")
  {
  }

  /** With only `carousel_media`, the first entry that has video versions wins. */
  lemma CarouselSkipsEntriesWithoutVideoExample()
    ensures ExtractVideoUrl(InfoBody([MediaItem("", [], [
              CarouselEntry([]),
              CarouselEntry([VideoVersion("second.mp4"), VideoVersion("other.mp4")]),
              CarouselEntry([VideoVersion("third.mp4")])])]))
            == Some("second.mp4")
  {
  }
}

=== FILE: reels_page.dfy ===
/**
 * The content script as a whole on one page: the stored preference, the
 * page's videos, the injected controls with their sliders and icons, and
 * the handlers that change them (`loadSettings`, the slider's `oninput`, the
 * volume button's `onclick`, `applyVolumeToAllVideos`, `updateAllSliders`,
 * `updateAllVolumeIcons`, `injectControlsToAllContainers`, the video
 * listeners, and `downloadReel`).
 */
module ReelsPage {
  import opened Wrappers
  import opened Text
  import opened Routes
  import opened Dom
  import opened ActionContainers
  import opened ControlsInjection
  import opened Volume
  import opened MediaInfo
  import opened ShortcodeUrl
  import opened DownloadPipeline
  import VideoLookup

  /** The script's state and the parts of the page it writes. Videos and
      the sliders and icons of each controls block are keyed by identity. */
  datatype Page = Page(
    path: string,
    prefs: Prefs,
    saved: Option<Prefs>,             // what `saveSettings` last wrote
    videos: map<NodeId, VideoState>,
    injection: Injection,
    sliders: map<NodeId, Percent>,
    icons: map<NodeId, Icon>)

  /** Every controls block has a slider and a button, and both show the
      stored preference. */
  predicate Consistent(pg: Page) {
    && pg.sliders.Keys == pg.icons.Keys
    && (forall k :: k in pg.sliders ==> pg.sliders[k] == SliderValue(pg.prefs))
    && (forall k :: k in pg.icons ==> pg.icons[k] == IconFor(pg.prefs))
  }

  /** `document.querySelectorAll('video')`. */
  function DocumentVideos(pg: Page): seq<NodeId> {
    QueryAll(pg.injection.doc, TagName(VideoLookup.VideoTag))
  }

  /** The script's video states are exactly the document's video elements. */
  predicate VideosTracked(pg: Page) {
    && (forall x :: x in pg.videos ==> x in DocumentVideos(pg))
    && (forall x :: x in DocumentVideos(pg) ==> x in pg.videos)
  }

  /** What every handler keeps: a well-formed document, controls in every
      processed container, one state per video element, and consistent
      controls. */
  ghost predicate PageInvariant(pg: Page) {
    && WellFormed(pg.injection.doc)
    && ProcessedHaveControls(pg.injection)
    && VideosTracked(pg)
    && Consistent(pg)
  }

  /** On a Reels route, every video follows the preference and carries the
      enforcement listener. */
  predicate VideosFollow(pg: Page) {
    forall id :: id in pg.videos ==> Follows(pg.videos[id], pg.prefs) && pg.videos[id].listener.Some?
  }

  /** `applyVolumeToAllVideos`. */
  function ApplyVolumeToAllVideos(pg: Page): (r: Page)
    ensures r.videos.Keys == pg.videos.Keys
    ensures r == pg.(videos := r.videos)
    ensures !OnReelsRoute(pg.path) ==> r == pg
    ensures OnReelsRoute(pg.path) ==> VideosFollow(r)
    ensures VideosTracked(pg) && OnReelsRoute(pg.path) ==>
              forall x :: x in DocumentVideos(pg) ==>
                x in r.videos && Follows(r.videos[x], pg.prefs) && r.videos[x].listener.Some?
    ensures forall id :: id in pg.videos && pg.videos[id].listener.Some? ==>
              r.videos[id].listener == pg.videos[id].listener
  {
    if !OnReelsRoute(pg.path) then pg
    else pg.(videos := map id | id in pg.videos :: ApplyVolumeToVideo(pg.path, pg.prefs, pg.videos[id]))
  }

  /** `updateAllSliders`. */
  function UpdateAllSliders(pg: Page): (r: Page)
    ensures r.sliders.Keys == pg.sliders.Keys
    ensures r == pg.(sliders := r.sliders)
    ensures forall k :: k in r.sliders ==> r.sliders[k] == SliderValue(pg.prefs)
  {
    pg.(sliders := map k | k in pg.sliders :: SliderValue(pg.prefs))
  }

  /** `updateAllVolumeIcons`. */
  function UpdateAllVolumeIcons(pg: Page): (r: Page)
    ensures r.icons.Keys == pg.icons.Keys
    ensures r == pg.(icons := r.icons)
    ensures forall k :: k in r.icons ==> r.icons[k] == IconFor(pg.prefs)
  {
    pg.(icons := map k | k in pg.icons :: IconFor(pg.prefs))
  }

  /** The common tail of both controls handlers: save, apply to every
      video, refresh every slider and icon. */
  function AfterPrefsChange(pg: Page, p: Prefs): (r: Page)
    requires pg.sliders.Keys == pg.icons.Keys
    ensures r.prefs == p && r.saved == Some(p)
    ensures Consistent(r)
    ensures OnReelsRoute(pg.path) ==> VideosFollow(r)
    ensures r.injection == pg.injection && r.path == pg.path
    ensures r.videos.Keys == pg.videos.Keys && r.sliders.Keys == pg.sliders.Keys
  {
    var changed := pg.(prefs := p, saved := Some(p));
    UpdateAllVolumeIcons(UpdateAllSliders(ApplyVolumeToAllVideos(changed)))
  }

  /** The slider's `oninput`. */
  function OnSliderInput(pg: Page, value: Percent): (r: Page)
    requires pg.sliders.Keys == pg.icons.Keys
    ensures r.prefs.volume == value && (r.prefs.muted <==> value == 0)
    ensures forall k :: k in r.sliders ==> r.sliders[k] == value
    ensures Consistent(r) && r.saved == Some(r.prefs)
    ensures OnReelsRoute(pg.path) ==> VideosFollow(r)
  {
    SliderShowsInput(value);
    AfterPrefsChange(pg, SliderInput(value))
  }

  /** The volume button's `onclick`. */
  function OnMuteClick(pg: Page): (r: Page)
    requires pg.sliders.Keys == pg.icons.Keys
    ensures r.prefs.volume == pg.prefs.volume && r.prefs.muted == !pg.prefs.muted
    ensures Consistent(r) && r.saved == Some(r.prefs)
    ensures OnReelsRoute(pg.path) ==> VideosFollow(r)
  {
    AfterPrefsChange(pg, ToggleMute(pg.prefs))
  }

  /** Clicking the volume button twice restores the preference and every
      control, and leaves the same preference saved. */
  lemma MuteClickTwiceRestores(pg: Page)
    requires Consistent(pg)
    ensures var r := OnMuteClick(OnMuteClick(pg));
            r.prefs == pg.prefs && r.sliders == pg.sliders && r.icons == pg.icons
            && r.saved == Some(pg.prefs)
  {
    ToggleMuteIsInvolution(pg.prefs);
  }

  /** What `chrome.storage.local.get` returns: each key may be missing. */
  datatype Stored = Stored(volume: Option<Percent>, muted: Option<bool>)

  /** A stored key replaces the default, a missing key keeps it. */
  function LoadedPrefs(p: Prefs, stored: Stored): (r: Prefs)
    ensures stored.volume.Some? ==> r.volume == stored.volume.value
    ensures stored.volume.None? ==> r.volume == p.volume
    ensures stored.muted.Some? ==> r.muted == stored.muted.value
    ensures stored.muted.None? ==> r.muted == p.muted
  {
    Prefs(stored.volume.GetOr(p.volume), stored.muted.GetOr(p.muted))
  }

  /** Saving then loading gives the saved preference back. */
  lemma SaveThenLoadRoundTrip(p: Prefs, q: Prefs)
    ensures LoadedPrefs(q, Stored(Some(p.volume), Some(p.muted))) == p
  {
  }

  /** The `loadSettings` callback as written: apply to every video and
      refresh the sliders, but not the icons. */
  function OnSettingsLoadedAsWritten(pg: Page, stored: Stored): (r: Page)
    ensures r.prefs == LoadedPrefs(pg.prefs, stored)
    ensures r.icons == pg.icons
    ensures r.sliders.Keys == pg.sliders.Keys
    ensures forall k :: k in r.sliders ==> r.sliders[k] == SliderValue(r.prefs)
    ensures OnReelsRoute(pg.path) ==> VideosFollow(r)
    ensures !OnReelsRoute(pg.path) ==> r.videos == pg.videos
    ensures r.injection == pg.injection && r.path == pg.path && r.saved == pg.saved
    ensures r.videos.Keys == pg.videos.Keys
  {
    UpdateAllSliders(ApplyVolumeToAllVideos(pg.(prefs := LoadedPrefs(pg.prefs, stored))))
  }

  /** The same callback refreshing the icons too. */
  function OnSettingsLoaded(pg: Page, stored: Stored): (r: Page)
    requires pg.sliders.Keys == pg.icons.Keys
    ensures r.prefs == LoadedPrefs(pg.prefs, stored)
    ensures Consistent(r)
    ensures OnReelsRoute(pg.path) ==> VideosFollow(r)
  {
    UpdateAllVolumeIcons(OnSettingsLoadedAsWritten(pg, stored))
  }

  /** The page as the script finds it: `start` has not run, the storage
      read has not returned, and nothing is tracked yet. */
  function StartPage(d: Document): (pg: Page)
    ensures pg.prefs == InitialPrefs && pg.injection == Injection(d, {}, [])
    ensures |pg.videos| == 0 && |pg.sliders| == 0 && |pg.icons| == 0
  {
    Page("/reels/ABC/", InitialPrefs, None, map[], Injection(d, {}, []), map[], map[])
  }

  /** A document the script has not touched yet: well formed, with element
      `c`, and with neither controls nor videos anywhere. */
  ghost predicate Untouched(d: Document, c: NodeId) {
    && WellFormed(d) && c in d.nodes
    && |QueryAll(d, ClassName(ControlsClass))| == 0
    && |QueryAll(d, TagName(VideoLookup.VideoTag))| == 0
  }

  /** A page whose container `c` received its controls block before the
      stored preference arrived: the default preference, slider at 50, loud
      icon, and no video yet. */
  function EarlyPage(d: Document, c: NodeId): (pg: Page)
    requires c in d.nodes
    ensures pg.prefs == InitialPrefs && pg.saved.None? && |pg.videos| == 0
    ensures pg.sliders.Keys == {d.nextId} && pg.icons.Keys == {d.nextId}
    ensures Consistent(pg)
  {
    Page("/reels/ABC/", InitialPrefs, None, map[], InjectControlsToContainer(Injection(d, {}, []), c),
         map[d.nextId := SliderValue(InitialPrefs)], map[d.nextId := IconFor(InitialPrefs)])
  }

  /** On an untouched document the early page meets the invariant: `c` is
      the one processed container and its block the one created. */
  lemma EarlyPageMeetsInvariant(d: Document, c: NodeId)
    requires Untouched(d, c)
    ensures PageInvariant(EarlyPage(d, c))
    ensures EarlyPage(d, c).injection.processed == {c}
    ensures EarlyPage(d, c).injection.created == [d.nextId]
  {
    FirstInjection(d, c, VideoLookup.VideoTag);
    var st := InjectControlsToContainer(Injection(d, {}, []), c);
    OneBlockPageInvariant("/reels/ABC/", InitialPrefs, st, d.nextId);
  }

  /** A page with no video yet and one controls block showing the preference
      meets the invariant once its document does. */
  lemma OneBlockPageInvariant(path: string, p: Prefs, st: Injection, block: NodeId)
    requires WellFormed(st.doc) && ProcessedHaveControls(st)
    requires |QueryAll(st.doc, TagName(VideoLookup.VideoTag))| == 0
    ensures PageInvariant(Page(path, p, None, map[], st, map[block := SliderValue(p)], map[block := IconFor(p)]))
  {
  }

  /** As written, loading a stored quiet or muted preference into a page
      that met the invariant leaves the block's icon showing the loud glyph
      while its slider moves. */
  lemma StaleIconAfterLoad(d: Document, c: NodeId)
    requires Untouched(d, c)
    ensures PageInvariant(EarlyPage(d, c))
    ensures var r := OnSettingsLoadedAsWritten(EarlyPage(d, c), Stored(Some(20), None));
            r.sliders[d.nextId] == 20 && r.icons[d.nextId] == HighIcon && IconFor(r.prefs) == LowIcon
            && !Consistent(r)
    ensures var r := OnSettingsLoadedAsWritten(EarlyPage(d, c), Stored(None, Some(true)));
            r.sliders[d.nextId] == 0 && r.icons[d.nextId] == HighIcon && IconFor(r.prefs) == MutedIcon
            && !Consistent(r)
  {
    EarlyPageMeetsInvariant(d, c);
  }

  /** Give each new block a slider and a button showing the preference. */
  function RegisterControls(pg: Page, added: seq<NodeId>): (r: Page)
    ensures r.sliders.Keys == pg.sliders.Keys + set k | k in added
    ensures r.icons.Keys == pg.icons.Keys + set k | k in added
    ensures r == pg.(sliders := r.sliders, icons := r.icons)
    ensures forall k :: k in added ==> r.sliders[k] == SliderValue(pg.prefs) && r.icons[k] == IconFor(pg.prefs)
    ensures forall k :: k in pg.sliders && k !in added ==> r.sliders[k] == pg.sliders[k]
    ensures forall k :: k in pg.icons && k !in added ==> r.icons[k] == pg.icons[k]
    ensures Consistent(pg) ==> Consistent(r)
    ensures |added| == 0 ==> r == pg
  {
    var r := pg.(sliders := pg.sliders + map k | k in added :: SliderValue(pg.prefs),
                 icons := pg.icons + map k | k in added :: IconFor(pg.prefs));
    assert |added| == 0 ==> r.sliders == pg.sliders && r.icons == pg.icons;
    r
  }

  /** `injectControlsToAllContainers`, with each new block's slider and
      button showing the current preference (`createVolumeSlider` and
      `updateVolumeIcon` at creation). */
  function InjectControlsToAllContainers(pg: Page): (r: Page)
    ensures r.injection == ScanAndInject(pg.path, pg.injection)
    ensures var added := r.injection.created[|pg.injection.created|..];
            && r.sliders.Keys == pg.sliders.Keys + set k | k in added
            && r.icons.Keys == pg.icons.Keys + set k | k in added
    ensures r.prefs == pg.prefs && r.videos == pg.videos
  {
    var injected := ScanAndInject(pg.path, pg.injection);
    RegisterControls(pg.(injection := injected), injected.created[|pg.injection.created|..])
  }

  /** When the scan of an untouched document finds the one container `c`,
      `start` on a Reels route produces the early page. */
  lemma StartInjectsOne(d: Document, c: NodeId)
    requires Untouched(d, c) && FindAllActionContainers(d) == [c]
    ensures InjectControlsToAllContainers(StartPage(d)) == EarlyPage(d, c)
  {
    var st := InjectControlsToContainer(Injection(d, {}, []), c);
    StartScanInjectsOne(d, c);
    FirstInjection(d, c, VideoLookup.VideoTag);
    assert st.created[0..] == [d.nextId];
    OneBlockRegistered(StartPage(d).(injection := st), d.nextId);
  }

  /** The start scan injects into exactly the containers it found. */
  lemma StartScanInjectsOne(d: Document, c: NodeId)
    requires FindAllActionContainers(d) == [c]
    ensures ScanAndInject(StartPage(d).path, Injection(d, {}, []))
            == InjectControlsToContainer(Injection(d, {}, []), c)
  {
    StartPathIsReels(d);
    InjectAllOne(Injection(d, {}, []), c);
  }

  lemma StartPathIsReels(d: Document)
    ensures OnReelsRoute(StartPage(d).path)
  {
    assert StartsAt(StartPage(d).path, 0, ReelsRoute);
  }

  /** Registering one block on a page without controls gives that block the
      page's slider value and icon. */
  lemma OneBlockRegistered(pg: Page, block: NodeId)
    requires |pg.sliders| == 0 && |pg.icons| == 0
    ensures RegisterControls(pg, [block]).sliders == map[block := SliderValue(pg.prefs)]
    ensures RegisterControls(pg, [block]).icons == map[block := IconFor(pg.prefs)]
  {
  }

  /** A Reels page at first load: a body holding one container of `height`
      pixels whose four children are the like, comment, share and save icons. */
  function StartDocument(height: nat): (d: Document)
    ensures d.nodes.Keys == {0, 1, 2, 3, 4, 5} && d.order == [0, 1, 2, 3, 4, 5]
    ensures d.body == 0 && d.nextId == 6
  {
    Document(map[0 := Element("body", None, {}, None, [1], 0, 0, height),
                 1 := Element("div", None, {}, Some(0), [2, 3, 4, 5], 1, 0, height),
                 2 := ActionIcon("Like"), 3 := ActionIcon("Comment"),
                 4 := ActionIcon("Share"), 5 := ActionIcon("Save")],
             [0, 1, 2, 3, 4, 5], 0, 6)
  }

  /** An action icon, as a child of the container. */
  function ActionIcon(name: string): (e: Element)
    ensures Matches(e, LabeledSvg(name))
  {
    Element("svg", Some(name), {}, Some(1), [], 2, 0, 0)
  }

  lemma StartIsUntouched(height: nat)
    ensures Untouched(StartDocument(height), 1)
  {
    StartIsWellFormed(height);
    StartHasNoControlsOrVideos(height);
  }

  lemma StartIsWellFormed(height: nat)
    ensures WellFormed(StartDocument(height))
  {
    var d := StartDocument(height);
    forall n | n in d.nodes ensures ParentOf(d, n) == d.nodes[n].parent {
      StartParentOf(height, n);
    }
    forall n, k | n in d.nodes && 0 <= k < |d.nodes[n].children|
      ensures d.nodes[n].children[k] in d.nodes && d.nodes[d.nodes[n].children[k]].parent == Some(n)
    {
      StartChildLink(height, n, k);
    }
    assert forall x :: x in d.order <==> x in d.nodes;
  }

  lemma StartParentOf(height: nat, n: NodeId)
    requires n in StartDocument(height).nodes
    ensures ParentOf(StartDocument(height), n) == StartDocument(height).nodes[n].parent
  {
    var d := StartDocument(height);
    if n == 0 {
      assert d.nodes[0].parent == None;
    } else if n == 1 {
      assert d.nodes[1].parent == Some(0) && d.nodes[0].depth < d.nodes[1].depth;
    } else {
      assert n in {2, 3, 4, 5};
      assert d.nodes[n].parent == Some(1) && d.nodes[1].depth < d.nodes[n].depth;
    }
  }

  lemma StartChildLink(height: nat, n: NodeId, k: nat)
    requires n in StartDocument(height).nodes && k < |StartDocument(height).nodes[n].children|
    ensures var d := StartDocument(height);
            d.nodes[n].children[k] in d.nodes && d.nodes[d.nodes[n].children[k]].parent == Some(n)
  {
    var d := StartDocument(height);
    assert n == 0 || n == 1;
    if n == 0 {
      assert d.nodes[0].children == [1];
    } else {
      assert d.nodes[1].children == [2, 3, 4, 5];
      assert d.nodes[1].children[k] in {2, 3, 4, 5};
    }
  }

  lemma StartHasNoControlsOrVideos(height: nat)
    ensures |QueryAll(StartDocument(height), ClassName(ControlsClass))| == 0
    ensures |QueryAll(StartDocument(height), TagName(VideoLookup.VideoTag))| == 0
  {
    var d := StartDocument(height);
    forall m | m in d.nodes ensures !Matches(d.nodes[m], ClassName(ControlsClass))
      ensures !Matches(d.nodes[m], TagName(VideoLookup.VideoTag))
    {
      assert m in {0, 1, 2, 3, 4, 5};
    }
  }

  /** Element 1 is the start document's one action container. */
  lemma StartHasContainer(height: nat)
    ensures IsActionContainer(StartDocument(height), 1)
  {
    var d := StartDocument(height);
    forall m | m in {2, 3, 4, 5} ensures Ancestors(d, m)[0] == 1 {
      assert ParentOf(d, m) == Some(1);
    }
    assert Matches(d.nodes[2], LabeledSvg("Like")) && 1 in Ancestors(d, 2);
    assert Matches(d.nodes[3], LabeledSvg("Comment")) && 1 in Ancestors(d, 3);
    assert Matches(d.nodes[4], LabeledSvg("Share")) && 1 in Ancestors(d, 4);
    assert Matches(d.nodes[5], LabeledSvg("Save")) && 1 in Ancestors(d, 5);
  }

  /** The start document's only like icon is element 2. */
  lemma StartLikeButtons(height: nat)
    ensures LikeButtons(StartDocument(height)) == [2]
  {
    var d := StartDocument(height);
    forall j | 0 <= j < |d.order| && j != 2 && d.order[j] in d.nodes
      ensures !Matches(d.nodes[d.order[j]], LabeledSvg("Like"))
    {
      assert j in {0, 1, 3, 4, 5};
    }
    QueryAllSingle(d, LabeledSvg("Like"), 2);
  }

  /** The scan of the start document finds element 1 and nothing else. */
  lemma StartScanFindsOne(height: nat)
    ensures FindAllActionContainers(StartDocument(height)) == [1]
  {
    StartLikeButtons(height);
    StartFindsFromLike(height);
    OneLikeOneContainer(StartDocument(height), 2, 1);
  }

  lemma StartFindsFromLike(height: nat)
    ensures FindActionContainerFromLikeButton(StartDocument(height), 2) == Some(1)
  {
    StartHasContainer(height);
    assert ParentOf(StartDocument(height), 2) == Some(1);
  }

  /** With one like icon, the scan finds what its walk finds. */
  lemma OneLikeOneContainer(d: Document, like: NodeId, c: NodeId)
    requires LikeButtons(d) == [like] && FindActionContainerFromLikeButton(d, like) == Some(c)
    ensures FindAllActionContainers(d) == [c]
  {
    assert [like][..0] == [];
    assert CollectContainers(d, [like]) == [c];
  }

  /** As written, on the start document: `start` injects the one block with
      the default preference; a quiet stored preference then moves the
      slider and leaves the loud icon. */
  lemma StaleIconOnStartPage(height: nat)
    ensures var d := StartDocument(height);
            var early := InjectControlsToAllContainers(StartPage(d));
            early == EarlyPage(d, 1) && PageInvariant(early)
            && var r := OnSettingsLoadedAsWritten(early, Stored(Some(20), None));
               r.sliders[6] == 20 && r.icons[6] == HighIcon && IconFor(r.prefs) == LowIcon && !Consistent(r)
  {
    var d := StartDocument(height);
    StartIsUntouched(height);
    StartScanFindsOne(height);
    StartInjectsOne(d, 1);
    StaleIconAfterLoad(d, 1);
  }

  /** New controls show the preference, so the controls stay consistent. */
  lemma InjectKeepsConsistent(pg: Page)
    requires Consistent(pg)
    ensures Consistent(InjectControlsToAllContainers(pg))
  {
    var injected := ScanAndInject(pg.path, pg.injection);
    var added := injected.created[|pg.injection.created|..];
    assert InjectControlsToAllContainers(pg) == RegisterControls(pg.(injection := injected), added);
  }

  /** A second injection pass right after a first changes nothing. */
  lemma InjectTwiceIsInjectOnce(pg: Page)
    requires WellFormed(pg.injection.doc) && ProcessedHaveControls(pg.injection)
    ensures InjectControlsToAllContainers(InjectControlsToAllContainers(pg))
            == InjectControlsToAllContainers(pg)
  {
    var once := InjectControlsToAllContainers(pg);
    ScanTwiceIsScanOnce(pg.path, pg.injection);
    assert once.injection.created[|once.injection.created|..] == [];
  }

  /** A `video` element the page puts under `parent`, with its geometry. */
  function VideoElement(d: Document, parent: NodeId, top: int, height: nat): (e: Element)
    requires parent in d.nodes
    ensures NewChildOf(d, parent, e) && Matches(e, TagName(VideoLookup.VideoTag))
  {
    Element(VideoLookup.VideoTag, None, {}, Some(parent), [], d.nodes[parent].depth + 1, top, height)
  }

  /** The video observer: the page adds a `video` element under `parent`,
      with the volume and mute flag the page gave it, and the script applies
      the preference to it. The new element takes the next free identity. */
  function OnVideoAdded(pg: Page, parent: NodeId, top: int, height: nat, volume: Percent, muted: bool): (r: Page)
    requires parent in pg.injection.doc.nodes
    ensures var id := pg.injection.doc.nextId;
            && r.injection.doc.nodes.Keys == pg.injection.doc.nodes.Keys + {id}
            && r.injection.doc.nodes[id].tag == VideoLookup.VideoTag
            && r.injection.doc.nodes[id].parent == Some(parent)
            && r.videos.Keys == pg.videos.Keys + {id}
            && (OnReelsRoute(pg.path) ==> Follows(r.videos[id], pg.prefs) && r.videos[id].listener == Some(0))
            && (!OnReelsRoute(pg.path) ==> r.videos[id] == VideoState(volume, muted, None))
            && (forall x :: x in pg.videos && x != id ==> r.videos[x] == pg.videos[x])
    ensures r == pg.(videos := r.videos, injection := r.injection)
    ensures r.injection == pg.injection.(doc := r.injection.doc)
  {
    var d := pg.injection.doc;
    var applied := ApplyVolumeToVideo(pg.path, pg.prefs, VideoState(volume, muted, None));
    pg.(videos := pg.videos[d.nextId := applied],
        injection := pg.injection.(doc := InsertFirstChild(d, parent, VideoElement(d, parent, top, height))))
  }

  /** One of the four listened events on a video. */
  function OnVideoEvent(pg: Page, id: NodeId): (r: Page)
    ensures r == pg.(videos := r.videos) && r.videos.Keys == pg.videos.Keys
    ensures forall x :: x in pg.videos && x != id ==> r.videos[x] == pg.videos[x]
    ensures id in pg.videos && pg.videos[id].listener.None? ==> r.videos[id] == pg.videos[id]
    ensures id in pg.videos && pg.videos[id].listener.Some? ==>
              r.videos[id].listener == Some(pg.videos[id].listener.value + 1)
    ensures id in pg.videos && pg.videos[id].listener.Some? && pg.videos[id].listener.value < MaxEnforcements
            ==> Follows(r.videos[id], pg.prefs)
    ensures id in pg.videos && pg.videos[id].listener.Some? && pg.videos[id].listener.value >= MaxEnforcements
            ==> r.videos[id].volume == pg.videos[id].volume && r.videos[id].muted == pg.videos[id].muted
    ensures id !in pg.videos ==> r == pg
  {
    if id in pg.videos then pg.(videos := pg.videos[id := OnMediaEvent(pg.prefs, pg.videos[id])]) else pg
  }

  // ---------------------------------------------------------------------
  // The page invariant under every handler

  /** The controls handlers and the settings callback change neither the
      document nor which videos are tracked. */
  lemma PrefsHandlersKeepInvariant(pg: Page, value: Percent, stored: Stored)
    requires PageInvariant(pg)
    ensures PageInvariant(OnSliderInput(pg, value))
    ensures PageInvariant(OnMuteClick(pg))
    ensures PageInvariant(OnSettingsLoaded(pg, stored))
  {
    var loaded := OnSettingsLoaded(pg, stored);
    assert loaded.injection == pg.injection && loaded.videos.Keys == pg.videos.Keys;
  }

  /** Injecting adds controls blocks but no video, so the tracked videos
      are still exactly the document's. */
  lemma InjectKeepsInvariant(pg: Page)
    requires PageInvariant(pg)
    ensures PageInvariant(InjectControlsToAllContainers(pg))
    ensures DocumentVideos(InjectControlsToAllContainers(pg)) == DocumentVideos(pg)
  {
    var r := InjectControlsToAllContainers(pg);
    var injected := ScanAndInject(pg.path, pg.injection);
    assert r.injection == injected && r.videos == pg.videos;
    ScanKeepsTag(pg.path, pg.injection, VideoLookup.VideoTag);
    assert DocumentVideos(r) == DocumentVideos(pg);
    if OnReelsRoute(pg.path) {
      InjectAllKeeps(pg.injection, FindAllActionContainers(pg.injection.doc));
    }
    assert ProcessedHaveControls(injected);
    InjectKeepsConsistent(pg);
  }

  /** A video the page adds becomes tracked, and nothing else does. */
  lemma OnVideoAddedKeepsInvariant(pg: Page, parent: NodeId, top: int, height: nat, volume: Percent, muted: bool)
    requires PageInvariant(pg) && parent in pg.injection.doc.nodes
    ensures var r := OnVideoAdded(pg, parent, top, height, volume, muted);
            && PageInvariant(r)
            && forall x :: x in DocumentVideos(r) <==> x in DocumentVideos(pg) || x == pg.injection.doc.nextId
  {
    var d := pg.injection.doc;
    var e := VideoElement(d, parent, top, height);
    var r := OnVideoAdded(pg, parent, top, height, volume, muted);
    assert r.injection.doc == InsertFirstChild(d, parent, e);
    InsertChildKeepsWellFormed(d, parent, e);
    InsertChildQueryAll(d, parent, e, TagName(VideoLookup.VideoTag));
    forall c | c in pg.injection.processed ensures HasControls(r.injection.doc, c) {
      InsertChildKeepsMatchUnder(d, parent, e, c, ClassName(ControlsClass));
    }
  }

  /** A listened event changes one video's state and nothing else. */
  lemma OnVideoEventKeepsInvariant(pg: Page, id: NodeId)
    requires PageInvariant(pg)
    ensures PageInvariant(OnVideoEvent(pg, id))
  {
  }

  // ---------------------------------------------------------------------
  // The download button

  const NoReelUrlAlert := "Unable to detect reel URL"
  const DownloadFailedPrefix := "Failed to download video: "
  const DownloadFailedDefault := "Download failed"

  /** How `chrome.runtime.sendMessage` settles: with the background's reply,
      or by rejecting. A missing reply makes reading `success` throw, which
      is the same as a rejection with that error. */
  datatype Response = Answered(reply: Reply) | Rejected(error: Thrown)

  datatype ButtonFace = DownloadFace | SpinnerFace | DoneFace

  /** What a click does: the message sent, the alert shown, the final face. */
  datatype Click = Click(sent: Option<Message>, alert: Option<string>, face: ButtonFace)

  /** `downloadReel`. */
  function DownloadReel(href: string, face: ButtonFace, response: Response): (r: Click)
    ensures !OnReelsRoute(href) ==> r == Click(None, Some(NoReelUrlAlert), face)
    ensures OnReelsRoute(href) ==> r.sent == Some(Message(DownloadReelType, href))
    ensures r.alert.None? <==> OnReelsRoute(href) && response.Answered? && response.reply.success
    ensures OnReelsRoute(href) && r.alert.None? ==> r.face == DoneFace
    ensures OnReelsRoute(href) && r.alert.Some? ==>
              r.face == DownloadFace && DownloadFailedPrefix <= r.alert.value
    ensures OnReelsRoute(href) && response.Answered? && r.alert.Some? ==>
              |r.alert.value| > |DownloadFailedPrefix|
  {
    if !OnReelsRoute(href) then Click(None, Some(NoReelUrlAlert), face)
    else
      var sent := Some(Message(DownloadReelType, href));
      match response
      case Answered(reply) =>
        if reply.success then Click(sent, None, DoneFace)
        else
          var message := match reply.error
            case Some(e) => if e != "" then e else DownloadFailedDefault
            case None => DownloadFailedDefault;
          Click(sent, Some(DownloadFailedPrefix + message), DownloadFace)
      case Rejected(e) =>
        Click(sent, Some(DownloadFailedPrefix + CaughtMessage(e, "Unknown error")), DownloadFace)
  }

  /** End to end: a click on a Reels page shows no alert exactly when the
      background's run succeeded, and otherwise shows the background's
      message. */
  lemma ClickReportsBackgroundRun(
    href: string, face: ButtonFace, primary: Fetched<InfoBody>, fallback: Fetched<GraphQLBody>,
    dispatch: Dispatch, now: nat)
    requires OnReelsRoute(href)
    ensures var run := HandleDownload(href, primary, fallback, dispatch, now);
            var reply := OnMessage(Message(DownloadReelType, href), primary, fallback, dispatch, now);
            reply.Some?
            && var click := DownloadReel(href, face, Answered(reply.value));
            && (click.alert.None? <==> run.reply.success)
            && (!run.reply.success && run.reply.error.value != "" ==>
                  click.alert == Some(DownloadFailedPrefix + run.reply.error.value))
  {
  }

  /** The audio page address: under the Reels path, but with no shortcode. */
  const AudioPageHref := "https://www.instagram.com/reels/audio/xyz/"

  lemma AudioPageIsOnReelsRoute()
    ensures OnReelsRoute(AudioPageHref)
    ensures ExtractShortcode(AudioPageHref).None?
  {
    assert AudioPageHref == "https://www.instagram.com" + "/reels/" + "audio/xyz/";
    ContainsMiddle("https://www.instagram.com", "/reels/", "audio/xyz/");
    AudioUrlExample();
  }

  /** An audio page under the Reels path passes the page's check, but the
      background finds no shortcode in it, and the alert says so. */
  lemma AudioPageClickFails(face: ButtonFace, primary: Fetched<InfoBody>, fallback: Fetched<GraphQLBody>,
                            dispatch: Dispatch, now: nat)
    ensures var reply := OnMessage(Message(DownloadReelType, AudioPageHref), primary, fallback, dispatch, now);
            reply == Some(Failed(NoShortcodeMessage))
            && DownloadReel(AudioPageHref, face, Answered(reply.value)).alert
               == Some(DownloadFailedPrefix + NoShortcodeMessage)
  {
    AudioPageIsOnReelsRoute();
    var run := HandleDownload(AudioPageHref, primary, fallback, dispatch, now);
    assert run.reply == Failed(NoShortcodeMessage);
  }
}

=== FILE: routes.dfy ===
/**
 * The route test the content script repeats before acting: it only works
 * where the page path (or, for downloads, the full address) contains the
 * Reels segment.
 */
module Routes {
  import opened Text

  const ReelsRoute := "/reels/"

  predicate OnReelsRoute(path: string) {
    Contains(path, ReelsRoute)
  }
}

=== FILE: shortcode.dfy ===
/**
 * Decoding of a post's public shortcode into the numeric primary key that the
 * media-info endpoint expects (`shortcodeToPk` in the background worker).
 *
 * The shortcode is read as a big-endian base-64 numeral over the alphabet
 * `A-Z a-z 0-9 - _`; each character contributes its position in that alphabet,
 * and a character outside it contributes -1 (the result of `indexOf`).
 */
module Shortcode {

  /** The character at position `k` of the alphabet, by character ranges. */
  function AlphabetChar(k: int): char
    requires 0 <= k < 64
  {
    if k < 26 then ('A' as int + k) as char
    else if k < 52 then ('a' as int + (k - 26)) as char
    else if k < 62 then ('0' as int + (k - 52)) as char
    else if k == 62 then '-'
    else '_'
  }

  /** The worker's 64-character alphabet, written in its three runs. */
  const EncodingChars: string :=
    "ABCDEFGHIJKLMNOPQRSTUVWXYZ" + "abcdefghijklmnopqrstuvwxyz" + "0123456789-_"

  /** Longest shortcode decoded whole; longer ones lose their last 28 characters. */
  const MaxDecodedLength: nat := 28

  /** The alphabet by character ranges. */
  function RangeAlphabet(): (s: string)
    ensures |s| == 64
    ensures forall k :: 0 <= k < 64 ==> s[k] == AlphabetChar(k)
  {
    seq(64, k requires 0 <= k < 64 => AlphabetChar(k))
  }

  lemma RangeAlphabetChunks()
    ensures RangeAlphabet()[..26] == "ABCDEFGHIJKLMNOPQRSTUVWXYZ"
    ensures RangeAlphabet()[26..52] == "abcdefghijklmnopqrstuvwxyz"
    ensures RangeAlphabet()[52..] == "0123456789-_"
  {
  }

  /** The literal and the character ranges spell the same alphabet. */
  lemma EncodingCharsByRange()
    ensures EncodingChars == RangeAlphabet()
  {
    var s := RangeAlphabet();
    RangeAlphabetChunks();
    assert s == s[..26] + s[26..52] + s[52..];
  }

  lemma EncodingCharsAt(k: int)
    requires 0 <= k < 64
    ensures |EncodingChars| == 64 && EncodingChars[k] == AlphabetChar(k)
  {
    EncodingCharsByRange();
  }

  /** JavaScript's `indexOf` on a string: the first position of `c`, or -1. */
  function IndexOf(s: string, c: char): (r: int)
    ensures -1 <= r < |s|
    ensures r == -1 <==> c !in s
    ensures r >= 0 ==> s[r] == c && forall k :: 0 <= k < r ==> s[k] != c
  {
    if |s| == 0 then -1
    else if s[0] == c then 0
    else
      var k := IndexOf(s[1..], c);
      if k < 0 then -1 else k + 1
  }

  /** A character's digit value by character ranges; -1 outside the alphabet. */
  function CharValue(c: char): (v: int)
    ensures -1 <= v < 64
    ensures v >= 0 ==> AlphabetChar(v) == c
  {
    if 'A' <= c <= 'Z' then c as int - 'A' as int
    else if 'a' <= c <= 'z' then c as int - 'a' as int + 26
    else if '0' <= c <= '9' then c as int - '0' as int + 52
    else if c == '-' then 62
    else if c == '_' then 63
    else -1
  }

  /** The digit value is the worker's `ENCODING_CHARS.indexOf(char)`: the
      alphabet has no repeated character, so the first position is the only one. */
  lemma CharValueIsIndexOf(c: char)
    ensures CharValue(c) == IndexOf(EncodingChars, c)
  {
    EncodingCharsByRange();
    var r := IndexOf(EncodingChars, c);
    if r >= 0 {
      assert AlphabetChar(r) == c;
      AlphabetCharValue(r);
    }
  }

  /** Every character of the alphabet decodes to its own position. */
  lemma AlphabetCharValue(k: int)
    requires 0 <= k < 64
    ensures CharValue(AlphabetChar(k)) == k
  {
  }

  /** Every character is in the alphabet (has a non-negative digit value). */
  predicate IsAlphabetString(s: string) {
    forall k :: 0 <= k < |s| ==> CharValue(s[k]) >= 0
  }

  function Pow64(n: nat): (r: nat)
    ensures r >= 1
  {
    if n == 0 then 1 else 64 * Pow64(n - 1)
  }

  /** The part of the shortcode that is decoded: for a code longer than 28
      characters, all but its last 28 (`slice(0, -28)`). */
  function Truncated(shortcode: string): (t: string)
    ensures |shortcode| <= MaxDecodedLength ==> t == shortcode
    ensures |shortcode| > MaxDecodedLength ==>
              |t| == |shortcode| - MaxDecodedLength && t == shortcode[..|t|]
  {
    if |shortcode| > MaxDecodedLength then shortcode[..|shortcode| - MaxDecodedLength] else shortcode
  }

  /** Left-to-right accumulation `pk = pk * 64 + value(c)`, the worker's loop. */
  function Horner(s: string): int
  {
    if |s| == 0 then 0 else Horner(s[..|s| - 1]) * 64 + CharValue(s[|s| - 1])
  }

  /** Positional notation: digit `s[k]` weighs `64^(|s| - 1 - k)`. */
  ghost function Positional(s: string): int
  {
    if |s| == 0 then 0 else CharValue(s[0]) * Pow64(|s| - 1) + Positional(s[1..])
  }

  lemma {:induction false} PositionalSnoc(s: string, c: char)
    ensures Positional(s + [c]) == Positional(s) * 64 + CharValue(c)
    decreases |s|
  {
    if |s| == 0 {
      assert (s + [c])[1..] == [];
    } else {
      var t := s[1..];
      assert (s + [c])[0] == s[0];
      assert (s + [c])[1..] == t + [c];
      PositionalSnoc(t, c);
      calc {
        Positional(s + [c]);
        CharValue(s[0]) * Pow64(|t| + 1) + Positional(t + [c]);
        CharValue(s[0]) * (64 * Pow64(|t|)) + Positional(t) * 64 + CharValue(c);
        (CharValue(s[0]) * Pow64(|t|) + Positional(t)) * 64 + CharValue(c);
        Positional(s) * 64 + CharValue(c);
      }
    }
  }

  /** The worker's left-to-right accumulation reads the shortcode as a
      base-64 numeral. */
  lemma {:induction false} HornerIsPositional(s: string)
    ensures Horner(s) == Positional(s)
    decreases |s|
  {
    if |s| > 0 {
      var init := s[..|s| - 1];
      HornerIsPositional(init);
      PositionalSnoc(init, s[|s| - 1]);
      assert init + [s[|s| - 1]] == s;
    }
  }

  /** `shortcodeToPk`: the primary key a shortcode stands for. */
  function ShortcodeToPk(shortcode: string): (pk: int)
    ensures pk == Positional(Truncated(shortcode))
  {
    HornerIsPositional(Truncated(shortcode));
    Horner(Truncated(shortcode))
  }

  /** An alphabet-only string of length n decodes into `0 <= pk < 64^n`. */
  lemma {:induction false} HornerBounds(s: string)
    requires IsAlphabetString(s)
    ensures 0 <= Horner(s) < Pow64(|s|)
    decreases |s|
  {
    if |s| > 0 {
      var init := s[..|s| - 1];
      assert IsAlphabetString(init) by {
        forall k | 0 <= k < |init| ensures CharValue(init[k]) >= 0 {
          assert init[k] == s[k];
        }
      }
      HornerBounds(init);
      var v := CharValue(s[|s| - 1]);
      assert 0 <= v < 64;
      assert Horner(init) <= Pow64(|init|) - 1;
      assert Horner(init) * 64 <= Pow64(|init|) * 64 - 64;
    }
  }

  /** The bound for shortcodes the worker decodes whole. */
  lemma ShortcodeToPkBounds(shortcode: string)
    requires |shortcode| <= MaxDecodedLength
    requires IsAlphabetString(shortcode)
    ensures 0 <= ShortcodeToPk(shortcode) < Pow64(|shortcode|)
  {
    HornerBounds(shortcode);
  }

  /** A code longer than 28 characters decodes like its first `len - 28`. */
  lemma ShortcodeToPkOfLongCode(shortcode: string)
    requires |shortcode| > MaxDecodedLength
    ensures ShortcodeToPk(shortcode) == Horner(shortcode[..|shortcode| - MaxDecodedLength])
  {
  }

  /** The base-64 numeral of `x` with exactly `n` digits: the inverse of the decoding. */
  function Encode(x: nat, n: nat): (s: string)
    requires x < Pow64(n)
    ensures |s| == n
    ensures IsAlphabetString(s)
  {
    if n == 0 then "" else Encode(x / 64, n - 1) + [AlphabetChar(x % 64)]
  }

  lemma {:induction false} DecodeEncode(x: nat, n: nat)
    requires x < Pow64(n)
    ensures Horner(Encode(x, n)) == x
    decreases n
  {
    if n > 0 {
      var s := Encode(x, n);
      DecodeEncode(x / 64, n - 1);
      assert s[..|s| - 1] == Encode(x / 64, n - 1);
      AlphabetCharValue(x % 64);
    }
  }

  lemma {:induction false} EncodeDecode(s: string)
    requires IsAlphabetString(s)
    ensures 0 <= Horner(s) < Pow64(|s|)
    ensures Encode(Horner(s), |s|) == s
    decreases |s|
  {
    HornerBounds(s);
    if |s| > 0 {
      var init := s[..|s| - 1];
      var c := s[|s| - 1];
      assert IsAlphabetString(init) by {
        forall k | 0 <= k < |init| ensures CharValue(init[k]) >= 0 {
          assert init[k] == s[k];
        }
      }
      EncodeDecode(init);
      var v := CharValue(c);
      assert 0 <= v < 64;
      assert Horner(s) / 64 == Horner(init);
      assert Horner(s) % 64 == v;
      assert init + [c] == s;
    }
  }

  /** Two alphabet-only shortcodes of the same length up to 28 characters
      name the same primary key only if they are equal. */
  lemma ShortcodeToPkInjective(a: string, b: string)
    requires |a| == |b| <= MaxDecodedLength
    requires IsAlphabetString(a) && IsAlphabetString(b)
    requires ShortcodeToPk(a) == ShortcodeToPk(b)
    ensures a == b
  {
    EncodeDecode(a);
    EncodeDecode(b);
  }

  /** A 30-character code decodes like its first two characters, not like its
      last 28: "BC" followed by 28 'A's gives 1 * 64 + 2. */
  lemma ThirtyCharacterExample()
    ensures var code := "BC" + seq(28, _ => 'A');
            ShortcodeToPk(code) == 66 && Horner(code[2..]) == 0
  {
    var code := "BC" + seq(28, _ => 'A');
    assert Truncated(code) == "BC";
    assert "BC"[..1] == "B";
    AllAsDecodeToZero(code[2..]);
  }

  lemma {:induction false} AllAsDecodeToZero(s: string)
    requires forall k :: 0 <= k < |s| ==> s[k] == 'A'
    ensures Horner(s) == 0
    decreases |s|
  {
    if |s| > 0 {
      AllAsDecodeToZero(s[..|s| - 1]);
    }
  }

  /** A character outside the alphabet contributes -1: "B!" decodes to 63. */
  lemma InvalidCharacterExample()
    ensures ShortcodeToPk("B!") == 63
  {
    assert "B!"[..1] == "B";
  }
}

=== FILE: shortcode_url.dfy ===
/**
 * `extractShortcode`: the first `/p/`, `/tv/`, `/reel/` or `/reels/` segment of
 * a URL and the shortcode after it. The worker uses the regular expression
 * search  \/(?:p|tv|reels?(?!\/audio\/))\/([^/?#&]+) ; this module scans for
 * the same leftmost match position by position and proves the scan agrees
 * with a declarative reading of that expression.
 */
module ShortcodeUrl {
  import opened Wrappers
  import opened Text

  /** Characters that end a shortcode: `/`, `?`, `#` and `&`. */
  predicate IsDelimiter(c: char) {
    c == '/' || c == '?' || c == '#' || c == '&'
  }

  predicate NoDelimiter(s: string) {
    forall k :: 0 <= k < |s| ==> !IsDelimiter(s[k])
  }

  /** Length of the maximal run of non-delimiters starting at `j`. */
  function RunLength(s: string, j: nat): (n: nat)
    requires j <= |s|
    ensures j + n <= |s|
    ensures forall k :: j <= k < j + n ==> !IsDelimiter(s[k])
    ensures j + n == |s| || IsDelimiter(s[j + n])
    decreases |s| - j
  {
    if j == |s| || IsDelimiter(s[j]) then 0 else 1 + RunLength(s, j + 1)
  }

  /** Length of the prefix `/p/`, `/tv/`, `/reels/` or `/reel/` matched at `i`,
      or 0 when none matches there. The reel forms are refused when followed
      by `/audio/`; `s?` is greedy, so `/reels/` is tried before `/reel/`. */
  function PrefixLength(s: string, i: nat): nat
  {
    if StartsAt(s, i, "/p/") then 3
    else if StartsAt(s, i, "/tv/") then 4
    else if StartsAt(s, i, "/reels/") && !StartsAt(s, i + 6, "/audio/") then 7
    else if StartsAt(s, i, "/reel/") && !StartsAt(s, i + 5, "/audio/") then 6
    else 0
  }

  /** The captured shortcode when the expression matches at position `i`. */
  function MatchAt(s: string, i: nat): Option<string>
  {
    var h := PrefixLength(s, i);
    if h == 0 || i + h > |s| then None
    else
      var n := RunLength(s, i + h);
      if n == 0 then None else Some(s[i + h..i + h + n])
  }

  /** The leftmost match at or after position `i`. */
  function ScanFrom(s: string, i: nat): Option<string>
    decreases |s| - i
  {
    if i >= |s| then None
    else if MatchAt(s, i).Some? then MatchAt(s, i)
    else ScanFrom(s, i + 1)
  }

  /** `extractShortcode`: the shortcode of the leftmost match, if any. */
  function ExtractShortcode(url: string): (r: Option<string>)
    ensures r.Some? ==> |r.value| > 0 && NoDelimiter(r.value)
  {
    ScanSound(url, 0);
    ScanFrom(url, 0)
  }

  // ---------------------------------------------------------------------
  // A declarative reading of the regular expression.

  /** `h` is the length of an alternative of the prefix group that matches at `i`. */
  predicate PrefixAt(s: string, i: nat, h: nat) {
    || (h == 3 && StartsAt(s, i, "/p/"))
    || (h == 4 && StartsAt(s, i, "/tv/"))
    || (h == 7 && StartsAt(s, i, "/reels/") && !StartsAt(s, i + 6, "/audio/"))
    || (h == 6 && StartsAt(s, i, "/reel/") && !StartsAt(s, i + 5, "/audio/"))
  }

  /** The expression matches at `i` with group 1 equal to `code`: a prefix
      alternative, then a non-empty run of non-delimiters that the greedy
      `+` extends as far as it can. */
  ghost predicate RegexMatch(s: string, i: nat, code: string) {
    exists h :: PrefixAt(s, i, h)
      && code != []
      && StartsAt(s, i + h, code)
      && NoDelimiter(code)
      && (i + h + |code| == |s| || IsDelimiter(s[i + h + |code|]))
  }

  /** At most one prefix alternative matches at a position. */
  lemma PrefixUnique(s: string, i: nat, h: nat)
    requires PrefixAt(s, i, h)
    ensures h == PrefixLength(s, i)
  {
    if StartsAt(s, i, "/p/") {
      assert s[i + 1] == s[i..i + 3][1] == 'p';
    }
    if StartsAt(s, i, "/tv/") {
      assert s[i + 1] == s[i..i + 4][1] == 't';
    }
    if StartsAt(s, i, "/reels/") {
      assert s[i + 1] == s[i..i + 7][1] == 'r' && s[i + 5] == s[i..i + 7][5] == 's';
    }
    if StartsAt(s, i, "/reel/") {
      assert s[i + 1] == s[i..i + 6][1] == 'r' && s[i + 5] == s[i..i + 6][5] == '/';
    }
  }

  /** A maximal non-delimiter run is determined by where it starts. */
  lemma RunUnique(s: string, j: nat, code: string)
    requires j <= |s|
    requires StartsAt(s, j, code) && NoDelimiter(code)
    requires j + |code| == |s| || IsDelimiter(s[j + |code|])
    ensures |code| == RunLength(s, j)
  {
  }

  lemma MatchAtSound(s: string, i: nat)
    requires MatchAt(s, i).Some?
    ensures RegexMatch(s, i, MatchAt(s, i).value)
  {
    var h := PrefixLength(s, i);
    var code := MatchAt(s, i).value;
    assert PrefixAt(s, i, h);
    assert StartsAt(s, i + h, code);
  }

  lemma MatchAtComplete(s: string, i: nat, code: string)
    requires RegexMatch(s, i, code)
    ensures MatchAt(s, i) == Some(code)
  {
    var h :| PrefixAt(s, i, h)
      && code != []
      && StartsAt(s, i + h, code)
      && NoDelimiter(code)
      && (i + h + |code| == |s| || IsDelimiter(s[i + h + |code|]));
    PrefixUnique(s, i, h);
    assert h > 0 && i + h <= |s|;
    RunUnique(s, i + h, code);
    var n := RunLength(s, i + h);
    assert n == |code| > 0;
    assert s[i + h..i + h + n] == code;
    assert MatchAt(s, i) == Some(s[i + h..i + h + n]);
  }

  /** The scanner's test at one position is exactly the declarative match. */
  lemma MatchAtIsRegexMatch(s: string, i: nat, code: string)
    ensures MatchAt(s, i) == Some(code) <==> RegexMatch(s, i, code)
  {
    if MatchAt(s, i) == Some(code) {
      MatchAtSound(s, i);
    }
    if RegexMatch(s, i, code) {
      MatchAtComplete(s, i, code);
    }
  }

  lemma {:induction false} ScanSound(s: string, i: nat)
    ensures ScanFrom(s, i).Some? ==>
              |ScanFrom(s, i).value| > 0 && NoDelimiter(ScanFrom(s, i).value)
    decreases |s| - i
  {
    if i < |s| && MatchAt(s, i).None? {
      ScanSound(s, i + 1);
    }
  }

  /** The scan from `i` finds the leftmost position at or after `i` where the
      expression matches, and finds nothing only when there is none. */
  lemma {:induction false} ScanIsLeftmost(s: string, i: nat)
    ensures ScanFrom(s, i).None? <==>
              forall j, c :: i <= j < |s| ==> !RegexMatch(s, j, c)
    ensures ScanFrom(s, i).Some? ==>
              exists j :: i <= j < |s| && RegexMatch(s, j, ScanFrom(s, i).value)
                && forall j', c :: i <= j' < j ==> !RegexMatch(s, j', c)
    decreases |s| - i
  {
    if i < |s| {
      forall c ensures MatchAt(s, i) == Some(c) <==> RegexMatch(s, i, c) {
        MatchAtIsRegexMatch(s, i, c);
      }
      if MatchAt(s, i).None? {
        ScanIsLeftmost(s, i + 1);
        if ScanFrom(s, i).Some? {
          var j :| i + 1 <= j < |s| && RegexMatch(s, j, ScanFrom(s, i).value)
                && forall j', c :: i + 1 <= j' < j ==> !RegexMatch(s, j', c);
          assert forall j', c :: i <= j' < j ==> !RegexMatch(s, j', c);
        }
      }
    }
  }

  /** `extractShortcode` returns group 1 of the leftmost match of the
      expression, and null exactly when the expression matches nowhere. */
  lemma ExtractShortcodeIsLeftmostMatch(url: string)
    ensures ExtractShortcode(url).None? <==>
              forall j, c :: 0 <= j < |url| ==> !RegexMatch(url, j, c)
    ensures ExtractShortcode(url).Some? ==>
              exists j :: 0 <= j < |url| && RegexMatch(url, j, ExtractShortcode(url).value)
                && forall j', c :: 0 <= j' < j ==> !RegexMatch(url, j', c)
  {
    ScanIsLeftmost(url, 0);
  }

  // ---------------------------------------------------------------------
  // Examples.

  /** A prefix alternative starts with `/` followed by `p`, `t` or `r`. */
  lemma PrefixNeedsSlash(s: string, j: nat)
    requires PrefixLength(s, j) > 0
    ensures j + 1 < |s| && s[j] == '/' && (s[j + 1] == 'p' || s[j + 1] == 't' || s[j + 1] == 'r')
  {
    var h := PrefixLength(s, j);
    assert PrefixAt(s, j, h);
    assert s[j..j + h][0] == s[j] && s[j..j + h][1] == s[j + 1];
  }

  /** Positions without a match are skipped by the scan. */
  lemma {:induction false} ScanSkips(s: string, i: nat, k: nat)
    requires i <= k <= |s|
    requires forall j :: i <= j < k ==> MatchAt(s, j).None?
    ensures ScanFrom(s, i) == ScanFrom(s, k)
    decreases k - i
  {
    if i < k {
      ScanSkips(s, i + 1, k);
    }
  }

  lemma OriginSlashes(u: string)
    requires StartsAt(u, 0, "https://www.instagram.com")
    ensures u[6] == '/' && u[7] == '/' && u[8] == 'w'
    ensures forall j :: 0 <= j < 25 && j != 6 && j != 7 ==> u[j] != '/'
  {
    var o := "https://www.instagram.com";
    assert u[..25] == o;
    assert forall j :: 0 <= j < 25 ==> u[j] == o[j];
  }

  /** Neither `https://` nor the host name holds a match. */
  lemma NoMatchInOrigin(u: string)
    requires StartsAt(u, 0, "https://www.instagram.com")
    ensures forall j :: 0 <= j < 25 ==> MatchAt(u, j).None?
  {
    OriginSlashes(u);
    forall j | 0 <= j < 25 ensures MatchAt(u, j).None? {
      if PrefixLength(u, j) > 0 {
        PrefixNeedsSlash(u, j);
      }
    }
  }

  lemma ReelMatch(u: string)
    requires u == "https://www.instagram.com/reel/ABC123xyz_-/"
    ensures MatchAt(u, 25) == Some("ABC123xyz_-")
  {
    assert u[25..31] == "/reel/";
    assert StartsAt(u, 25, "/reel/");
    assert !StartsAt(u, 25, "/reels/") by {
      assert u[25..32][6] == u[31];
    }
    assert !StartsAt(u, 30, "/audio/") by {
      assert u[30..37][1] == u[31];
    }
    assert !StartsAt(u, 25, "/p/") by {
      assert u[25..28][1] == u[26];
    }
    assert !StartsAt(u, 25, "/tv/") by {
      assert u[25..29][1] == u[26];
    }
    assert PrefixLength(u, 25) == 6;
    assert u[31..42] == "ABC123xyz_-";
    RunUnique(u, 31, "ABC123xyz_-");
  }

  lemma ReelUrlExample()
    ensures ExtractShortcode("https://www.instagram.com/reel/ABC123xyz_-/") == Some("ABC123xyz_-")
  {
    var u := "https://www.instagram.com/reel/ABC123xyz_-/";
    assert StartsAt(u, 0, "https://www.instagram.com");
    NoMatchInOrigin(u);
    ScanSkips(u, 0, 25);
    ReelMatch(u);
  }

  /** `/reels/` directly followed by `/audio/` is refused, and `reel` then
      `s` is not a `/reel/` prefix either. */
  lemma AudioPrefixRefused(u: string)
    requires u == "https://www.instagram.com/reels/audio/xyz/"
    ensures PrefixLength(u, 25) == 0
  {
    assert u[31..38] == "/audio/";
    assert StartsAt(u, 31, "/audio/");
    assert !StartsAt(u, 25, "/reel/") by {
      assert u[25..31][5] == u[30];
    }
    assert !StartsAt(u, 25, "/p/") by {
      assert u[25..28][1] == u[26];
    }
    assert !StartsAt(u, 25, "/tv/") by {
      assert u[25..29][1] == u[26];
    }
  }

  lemma AudioUrlExample()
    ensures ExtractShortcode("https://www.instagram.com/reels/audio/xyz/").None?
  {
    var u := "https://www.instagram.com/reels/audio/xyz/";
    assert StartsAt(u, 0, "https://www.instagram.com");
    NoMatchInOrigin(u);
    AudioPrefixRefused(u);
    forall j | 25 < j < |u| ensures MatchAt(u, j).None? {
      if PrefixLength(u, j) > 0 {
        PrefixNeedsSlash(u, j);
      }
    }
    ScanSkips(u, 0, |u|);
  }
}

=== FILE: text.dfy ===
/** String helpers shared by the background worker and the content script. */
module Text {

  /** `s` holds `p` starting at position `i`. */
  predicate StartsAt(s: string, i: int, p: string) {
    0 <= i && i + |p| <= |s| && s[i..i + |p|] == p
  }

  /** JavaScript's `String.prototype.includes`: `p` occurs somewhere in `s`. */
  predicate Contains(s: string, p: string) {
    exists i | 0 <= i <= |s| :: StartsAt(s, i, p)
  }

  /** The character of a decimal digit `0 <= d < 10`. */
  function DigitChar(d: int): (c: char)
    requires 0 <= d < 10
    ensures '0' <= c <= '9'
  {
    ('0' as int + d) as char
  }

  /** Decimal rendering of a natural number, as `String(n)` prints it. */
  function NatToString(n: nat): (s: string)
    ensures |s| > 0
    ensures forall k :: 0 <= k < |s| ==> '0' <= s[k] <= '9'
    decreases n
  {
    if n < 10 then [DigitChar(n)] else NatToString(n / 10) + [DigitChar(n % 10)]
  }

  /** Decimal rendering of an integer, with a leading `-` when negative. */
  function IntToString(n: int): (s: string)
    ensures |s| > 0
    ensures (n < 0) <==> s[0] == '-'
  {
    if n < 0 then "-" + NatToString(-n) else NatToString(n)
  }

  /** A string built around `p` contains `p`. */
  lemma ContainsMiddle(a: string, p: string, b: string)
    ensures Contains(a + p + b, p)
  {
    assert (a + p + b)[|a|..|a| + |p|] == p;
    assert StartsAt(a + p + b, |a|, p);
  }
}

=== FILE: video_lookup.dfy ===
/**
 * Locating the video that belongs to an action container
 * (`findVideoForContainer` and `getClosestVideoToElement`).
 *
 * Geometry is in integer pixels. Centres are compared doubled
 * (`2 * top + height`), which orders distances exactly as the halved
 * centres of the source do.
 */
module VideoLookup {
  import opened Wrappers
  import opened Dom
  import opened ActionContainers

  const VideoTag := "video"

  /** The doubled centre line of an element. */
  function DoubledCenter(e: Element): int {
    2 * e.top + e.height
  }

  function Abs(x: int): nat {
    if x < 0 then -x else x
  }

  /** Twice the vertical distance between the centres of `a` and `b`. */
  function Distance(d: Document, a: NodeId, b: NodeId): nat
    requires a in d.nodes && b in d.nodes
  {
    Abs(DoubledCenter(d.nodes[a]) - DoubledCenter(d.nodes[b]))
  }

  /** Videos that take up no height are never candidates. */
  predicate Visible(d: Document, v: NodeId)
    requires v in d.nodes
  {
    d.nodes[v].height > 0
  }

  predicate AllIn(d: Document, vs: seq<NodeId>) {
    forall k :: 0 <= k < |vs| ==> vs[k] in d.nodes
  }

  /** `vs[i]` is visible, no visible video is nearer, and every visible
      video before it is strictly farther: the first of the nearest. */
  predicate IsClosestAt(d: Document, element: NodeId, vs: seq<NodeId>, i: int)
    requires element in d.nodes && AllIn(d, vs)
  {
    && 0 <= i < |vs|
    && Visible(d, vs[i])
    && (forall k :: 0 <= k < |vs| && Visible(d, vs[k]) ==>
          Distance(d, element, vs[i]) <= Distance(d, element, vs[k]))
    && (forall k :: 0 <= k < i && Visible(d, vs[k]) ==>
          Distance(d, element, vs[i]) < Distance(d, element, vs[k]))
  }

  /** At most one position is the first of the nearest visible videos, so
      the contract below fixes the result. */
  lemma ClosestIsUnique(d: Document, element: NodeId, vs: seq<NodeId>, i: int, j: int)
    requires element in d.nodes && AllIn(d, vs)
    requires IsClosestAt(d, element, vs, i) && IsClosestAt(d, element, vs, j)
    ensures i == j
  {
  }

  function Box(tag: string, top: int, height: nat): Element {
    Element(tag, None, {}, None, [], 0, top, height)
  }

  /** Centres 50, 10 and 200 pixels away, and a flat video right on the
      element's centre line: the 10-pixel one is chosen. */
  lemma ClosestExample()
    ensures var d := Document(map[0 := Box("div", 100, 0), 1 := Box("video", 140, 20),
                                  2 := Box("video", 100, 20), 3 := Box("video", 290, 20),
                                  4 := Box("video", 100, 0)], [0, 1, 2, 3, 4], 0, 5);
            var vs := [1, 2, 3, 4];
            AllIn(d, vs) && IsClosestAt(d, 0, vs, 1)
            && forall i :: IsClosestAt(d, 0, vs, i) ==> i == 1
  {
    var d := Document(map[0 := Box("div", 100, 0), 1 := Box("video", 140, 20),
                          2 := Box("video", 100, 20), 3 := Box("video", 290, 20),
                          4 := Box("video", 100, 0)], [0, 1, 2, 3, 4], 0, 5);
    var vs := [1, 2, 3, 4];
    assert Distance(d, 0, 1) == 100 && Distance(d, 0, 2) == 20 && Distance(d, 0, 3) == 400;
    assert !Visible(d, 4);
    assert IsClosestAt(d, 0, vs, 1);
    forall i | IsClosestAt(d, 0, vs, i) ensures i == 1 {
      ClosestIsUnique(d, 0, vs, i, 1);
    }
  }

  /** The scan of `getClosestVideoToElement` over a list of videos. */
  method ClosestIn(d: Document, element: NodeId, vs: seq<NodeId>) returns (closest: Option<NodeId>)
    requires element in d.nodes && AllIn(d, vs)
    ensures closest.None? <==> forall k :: 0 <= k < |vs| ==> !Visible(d, vs[k])
    ensures closest.Some? ==>
              exists i :: 0 <= i < |vs| && vs[i] == closest.value && IsClosestAt(d, element, vs, i)
  {
    var best := -1;
    var minDistance := 0;
    var i := 0;
    while i < |vs|
      invariant 0 <= i <= |vs|
      invariant -1 <= best < i
      invariant best == -1 <==> forall k :: 0 <= k < i ==> !Visible(d, vs[k])
      invariant best >= 0 ==> minDistance == Distance(d, element, vs[best])
      invariant best >= 0 ==> IsClosestAt(d, element, vs[..i], best)
    {
      if Visible(d, vs[i]) {
        var distance := Distance(d, element, vs[i]);
        if best == -1 || distance < minDistance {
          minDistance := distance;
          best := i;
        }
      }
      assert vs[..i + 1][..i] == vs[..i];
      i := i + 1;
    }
    assert vs[..i] == vs;
    if best == -1 {
      closest := None;
    } else {
      closest := Some(vs[best]);
    }
  }

  /** `getClosestVideoToElement`: among all videos of the document. */
  method GetClosestVideoToElement(d: Document, element: NodeId) returns (closest: Option<NodeId>)
    requires element in d.nodes
    ensures var vs := QueryAll(d, TagName(VideoTag));
            && (closest.None? <==> forall k :: 0 <= k < |vs| ==> vs[k] in d.nodes && !Visible(d, vs[k]))
            && (closest.Some? ==> exists i :: 0 <= i < |vs| && vs[i] == closest.value
                                              && IsClosestAt(d, element, vs, i))
  {
    var vs := QueryAll(d, TagName(VideoTag));
    assert AllIn(d, vs);
    closest := ClosestIn(d, element, vs);
  }

  function VideoUnder(d: Document, x: NodeId): Option<NodeId> {
    QueryFirstUnder(d, x, TagName(VideoTag))
  }

  /** The `while (parent)` loop of `findVideoForContainer`, from `x`. */
  function WalkForVideo(d: Document, x: NodeId): (r: Option<NodeId>)
    decreases if x in d.nodes then d.nodes[x].depth + 1 else 0
  {
    match VideoUnder(d, x)
    case Some(v) => Some(v)
    case None =>
      match ParentOf(d, x)
      case None => None
      case Some(p) => if p == d.body then None else WalkForVideo(d, p)
  }

  function HasVideoTest(d: Document): NodeId -> bool {
    (x: NodeId) => VideoUnder(d, x).Some?
  }

  lemma {:induction false} WalkForVideoIsFirstOfChain(d: Document, x: NodeId)
    ensures match FirstOf(Chain(d, x), HasVideoTest(d))
            case None => WalkForVideo(d, x).None?
            case Some(a) => WalkForVideo(d, x) == VideoUnder(d, a)
    decreases if x in d.nodes then d.nodes[x].depth + 1 else 0
  {
    var c := Chain(d, x);
    assert c[0] == x && c[1..] == UntilBody(d.body, Ancestors(d, x));
    if VideoUnder(d, x).None? {
      match ParentOf(d, x)
      case None =>
        assert c[1..] == [];
      case Some(p) =>
        if p != d.body {
          WalkForVideoIsFirstOfChain(d, p);
          assert c[1..] == Chain(d, p);
        } else {
          assert c[1..] == [];
        }
    }
  }

  /** The nearest examined ancestor holding a video, and that video: the
      walk starts at the container's parent and stops before the body. */
  function VideoAbove(d: Document, container: NodeId): (r: Option<NodeId>)
    ensures match FirstOf(Examined(d, container), HasVideoTest(d))
            case None => r.None?
            case Some(a) => r == VideoUnder(d, a) && r.Some?
                            && a in Ancestors(d, container) && a in Ancestors(d, r.value)
  {
    match ParentOf(d, container)
    case None => None
    case Some(p) =>
      WalkForVideoIsFirstOfChain(d, p);
      WalkForVideo(d, p)
  }

  /** `findVideoForContainer`: a video under the nearest examined ancestor
      that has one, else the visible video nearest to the container. */
  method FindVideoForContainer(d: Document, container: NodeId) returns (video: Option<NodeId>)
    requires container in d.nodes
    ensures VideoAbove(d, container).Some? ==> video == VideoAbove(d, container)
    ensures VideoAbove(d, container).None? ==>
              var vs := QueryAll(d, TagName(VideoTag));
              && (video.None? <==> forall k :: 0 <= k < |vs| ==> vs[k] in d.nodes && !Visible(d, vs[k]))
              && (video.Some? ==> exists i :: 0 <= i < |vs| && vs[i] == video.value
                                              && IsClosestAt(d, container, vs, i))
  {
    video := VideoAbove(d, container);
    if video.None? {
      video := GetClosestVideoToElement(d, container);
    }
  }
}

=== FILE: volume.dfy ===
/**
 * The stored volume preference and how the content script applies it: the
 * slider, the mute button, the icon, and the per-video enforcement listener
 * that re-applies the preference for the first ten media events of a video.
 *
 * Volume is kept as an integer percentage, which is what the range slider
 * produces (`parseInt` of a value between 0 and 100); the stored fraction is
 * that percentage over one hundred.
 */
module Volume {
  import opened Wrappers
  import opened Routes

  type Percent = x: int | 0 <= x <= 100

  /** The initial stored volume, one half. */
  const DefaultVolume: Percent := 50
  /** Media events after which a video's listener stops re-applying. */
  const MaxEnforcements: nat := 10
  /** Below this percentage the icon shows the low-volume glyph. */
  const LowVolumeBelow: Percent := 50

  /** `storedVolume` and `storedMuted`. */
  datatype Prefs = Prefs(volume: Percent, muted: bool)

  const InitialPrefs := Prefs(DefaultVolume, false)

  /** The value every slider shows: zero when muted, else the volume. */
  function SliderValue(p: Prefs): (v: Percent)
    ensures v == 0 <==> p.muted || p.volume == 0
    ensures v != 0 ==> v == p.volume
  {
    if p.muted then 0 else p.volume
  }

  /** The slider's `oninput`: the chosen value becomes the volume, and a
      value of zero (only zero) mutes. */
  function SliderInput(value: Percent): (r: Prefs)
    ensures r.muted <==> value == 0
    ensures r.volume == value
  {
    Prefs(value, value == 0)
  }

  /** The volume button's `onclick`: flips the mute flag, keeps the volume. */
  function ToggleMute(p: Prefs): (r: Prefs)
    ensures r.volume == p.volume && r.muted != p.muted
  {
    p.(muted := !p.muted)
  }

  /** Whatever the user drags to, every slider shows exactly that value. */
  lemma SliderShowsInput(value: Percent)
    ensures SliderValue(SliderInput(value)) == value
    ensures SliderInput(value).volume == value
  {
  }

  /** Two clicks on the volume button restore the preference. */
  lemma ToggleMuteIsInvolution(p: Prefs)
    ensures ToggleMute(ToggleMute(p)) == p
  {
  }

  /** Unmuting after a slider drag to zero still shows zero. */
  lemma UnmuteAfterZeroStaysSilent()
    ensures SliderValue(ToggleMute(SliderInput(0))) == 0
    ensures !ToggleMute(SliderInput(0)).muted
  {
  }

  datatype Icon = MutedIcon | LowIcon | HighIcon

  /** `updateVolumeIcon`: the glyph for the effective volume. */
  function IconFor(p: Prefs): (icon: Icon)
    ensures icon == MutedIcon <==> SliderValue(p) == 0
    ensures icon == LowIcon <==> 0 < SliderValue(p) < LowVolumeBelow
    ensures icon == HighIcon <==> SliderValue(p) >= LowVolumeBelow
  {
    var volume := if p.muted then 0 else p.volume;
    if volume == 0 then MutedIcon
    else if volume < LowVolumeBelow then LowIcon
    else HighIcon
  }

  /** The icon as a level: muted, low, high. */
  function IconLevel(icon: Icon): nat {
    match icon
    case MutedIcon => 0
    case LowIcon => 1
    case HighIcon => 2
  }

  /** The icon depends on the preference only through the slider value, and
      a louder slider never shows a quieter icon. */
  lemma IconFollowsSlider(p: Prefs, q: Prefs)
    ensures SliderValue(p) == SliderValue(q) ==> IconFor(p) == IconFor(q)
    ensures SliderValue(p) <= SliderValue(q) ==> IconLevel(IconFor(p)) <= IconLevel(IconFor(q))
  {
  }

  // ---------------------------------------------------------------------
  // One video element

  /** A video's `volume` and `muted`, and its enforcement listener's
      `changeCount` once one is attached. */
  datatype VideoState = VideoState(volume: Percent, muted: bool, listener: Option<nat>)

  predicate Follows(v: VideoState, p: Prefs) {
    v.volume == p.volume && v.muted == p.muted
  }

  /** `applyVolumeToVideo`: on a Reels route, set the preference and attach
      the listener unless one is attached already. */
  function ApplyVolumeToVideo(path: string, p: Prefs, v: VideoState): (r: VideoState)
    ensures !OnReelsRoute(path) ==> r == v
    ensures OnReelsRoute(path) ==> Follows(r, p) && r.listener.Some?
    ensures OnReelsRoute(path) && v.listener.None? ==> r.listener == Some(0)
    ensures v.listener.Some? ==> r.listener == v.listener
  {
    if !OnReelsRoute(path) then v
    else VideoState(p.volume, p.muted, if v.listener.Some? then v.listener else Some(0))
  }

  /** Something outside the extension, usually the page itself, writes the
      video's properties. */
  function HostSets(v: VideoState, volume: Percent, muted: bool): (r: VideoState)
    ensures r.listener == v.listener && r.volume == volume && r.muted == muted
  {
    v.(volume := volume, muted := muted)
  }

  /** `enforceVolume`, run on `volumechange`, `loadedmetadata`, `play` and
      `canplay`: count the event; up to the tenth, re-apply the preference
      current at the time of the event. */
  function OnMediaEvent(p: Prefs, v: VideoState): (r: VideoState)
    ensures v.listener.None? ==> r == v
    ensures v.listener.Some? ==> r.listener == Some(v.listener.value + 1)
    ensures v.listener.Some? && v.listener.value < MaxEnforcements ==> Follows(r, p)
    ensures v.listener.Some? && v.listener.value >= MaxEnforcements ==>
              r.volume == v.volume && r.muted == v.muted
  {
    match v.listener
    case None => v
    case Some(count) =>
      var changeCount := count + 1;
      if changeCount <= MaxEnforcements then VideoState(p.volume, p.muted, Some(changeCount))
      else v.(listener := Some(changeCount))
  }

  /** What happens to a video after its listener is attached. */
  datatype MediaEvent =
    | Fired                                   // one of the four listened events
    | Written(volume: Percent, muted: bool)   // the page writes the properties

  function Replay(p: Prefs, v: VideoState, events: seq<MediaEvent>): VideoState
    decreases |events|
  {
    if |events| == 0 then v
    else
      var next := match events[0]
        case Fired => OnMediaEvent(p, v)
        case Written(vol, m) => HostSets(v, vol, m);
      Replay(p, next, events[1..])
  }

  function FiredCount(events: seq<MediaEvent>): nat {
    if |events| == 0 then 0
    else (if events[0].Fired? then 1 else 0) + FiredCount(events[1..])
  }

  /** The listener's counter counts exactly the listened events. */
  lemma {:induction false} CounterCountsEvents(p: Prefs, n: nat, v: VideoState, events: seq<MediaEvent>)
    requires v.listener == Some(n)
    ensures Replay(p, v, events).listener == Some(n + FiredCount(events))
    decreases |events|
  {
    if |events| > 0 {
      var next := if events[0].Fired? then OnMediaEvent(p, v)
                  else HostSets(v, events[0].volume, events[0].muted);
      CounterCountsEvents(p, if events[0].Fired? then n + 1 else n, next, events[1..]);
    }
  }

  lemma {:induction false} ReplayAppend(p: Prefs, v: VideoState, a: seq<MediaEvent>, b: seq<MediaEvent>)
    ensures Replay(p, v, a + b) == Replay(p, Replay(p, v, a), b)
    decreases |a|
  {
    if |a| == 0 {
      assert a + b == b;
    } else {
      assert (a + b)[0] == a[0] && (a + b)[1..] == a[1..] + b;
      var next := if a[0].Fired? then OnMediaEvent(p, v) else HostSets(v, a[0].volume, a[0].muted);
      ReplayAppend(p, next, a[1..], b);
    }
  }

  /** While the counter is below the limit, the next listened event puts the
      preference back, whatever the page wrote before it. */
  lemma EnforcedWithinLimit(p: Prefs, n: nat, v: VideoState, events: seq<MediaEvent>)
    requires v.listener == Some(n) && n + FiredCount(events) < MaxEnforcements
    ensures Follows(Replay(p, v, events + [Fired]), p)
  {
    ReplayAppend(p, v, events, [Fired]);
    CounterCountsEvents(p, n, v, events);
    var mid := Replay(p, v, events);
    assert Replay(p, mid, [Fired]) == Replay(p, OnMediaEvent(p, mid), []);
  }

  /** After the tenth listened event the page's writes stand: the video ends
      with the last values written, whatever events follow. */
  lemma {:induction false} PageWinsAfterLimit(p: Prefs, n: nat, v: VideoState, events: seq<MediaEvent>)
    requires v.listener == Some(n) && n >= MaxEnforcements
    ensures var r := Replay(p, v, events);
            r.volume == LastVolume(v.volume, events) && r.muted == LastMuted(v.muted, events)
    decreases |events|
  {
    if |events| > 0 {
      var next := if events[0].Fired? then OnMediaEvent(p, v)
                  else HostSets(v, events[0].volume, events[0].muted);
      PageWinsAfterLimit(p, if events[0].Fired? then n + 1 else n, next, events[1..]);
    }
  }

  /** The volume last written in `events`, or `initial` if none. */
  function LastVolume(initial: Percent, events: seq<MediaEvent>): Percent
    decreases |events|
  {
    if |events| == 0 then initial
    else LastVolume(if events[0].Written? then events[0].volume else initial, events[1..])
  }

  /** The mute flag last written in `events`, or `initial` if none. */
  function LastMuted(initial: bool, events: seq<MediaEvent>): bool
    decreases |events|
  {
    if |events| == 0 then initial
    else LastMuted(if events[0].Written? then events[0].muted else initial, events[1..])
  }

  /** End to end from the moment a listener is attached to a video: while
      fewer than ten listened events have passed, the next one puts the
      preference back; once ten have passed, a value the page writes stays
      through the next event. */
  lemma EnforcementFromAttachment(path: string, p: Prefs, v: VideoState, events: seq<MediaEvent>,
                                  w: Percent, wm: bool)
    requires OnReelsRoute(path) && v.listener.None?
    ensures var a := ApplyVolumeToVideo(path, p, v);
            && (FiredCount(events) < MaxEnforcements ==> Follows(Replay(p, a, events + [Fired]), p))
            && (FiredCount(events) >= MaxEnforcements ==>
                  var r := Replay(p, a, events + [Written(w, wm), Fired]);
                  r.volume == w && r.muted == wm)
  {
    var a := ApplyVolumeToVideo(path, p, v);
    if FiredCount(events) < MaxEnforcements {
      EnforcedWithinLimit(p, 0, a, events);
    } else {
      var tail := [Written(w, wm), Fired];
      ReplayAppend(p, a, events, tail);
      CounterCountsEvents(p, 0, a, events);
      var mid := Replay(p, a, events);
      PageWinsAfterLimit(p, FiredCount(events), mid, tail);
      assert tail[1..] == [Fired] && [Fired][1..] == [];
      assert LastVolume(mid.volume, tail) == w && LastMuted(mid.muted, tail) == wm;
    }
  }

  /** Ten listened events in a row: the count of a run of `Fired`. */
  lemma {:induction false} FiredRun(n: nat)
    ensures FiredCount(seq(n, _ => Fired)) == n
  {
    if n > 0 {
      assert seq(n, _ => Fired)[1..] == seq(n - 1, _ => Fired);
      FiredRun(n - 1);
    }
  }

  /** A fresh video on a Reels route: after nine listened events the tenth
      still restores the preference; after ten, the page's write survives
      the eleventh. */
  lemma TenthEventIsLastEnforced(path: string, p: Prefs, v: VideoState, w: Percent, wm: bool)
    requires OnReelsRoute(path) && v.listener.None?
    ensures var a := ApplyVolumeToVideo(path, p, v);
            && Follows(Replay(p, a, seq(9, _ => Fired) + [Written(w, wm), Fired]), p)
            && var r := Replay(p, a, seq(10, _ => Fired) + [Written(w, wm), Fired]);
               r.volume == w && r.muted == wm
  {
    var nine := seq(9, _ => Fired) + [Written(w, wm)];
    FiredRun(9);
    assert FiredCount([Written(w, wm)]) == 0;
    FiredCountAppend(seq(9, _ => Fired), [Written(w, wm)]);
    EnforcementFromAttachment(path, p, v, nine, w, wm);
    assert nine + [Fired] == seq(9, _ => Fired) + [Written(w, wm), Fired];
    FiredRun(10);
    EnforcementFromAttachment(path, p, v, seq(10, _ => Fired), w, wm);
  }

  lemma {:induction false} FiredCountAppend(a: seq<MediaEvent>, b: seq<MediaEvent>)
    ensures FiredCount(a + b) == FiredCount(a) + FiredCount(b)
    decreases |a|
  {
    if |a| == 0 {
      assert a + b == b;
    } else {
      assert (a + b)[1..] == a[1..] + b;
      FiredCountAppend(a[1..], b);
    }
  }

  /** Re-applying on a later scan neither resets nor re-arms the listener:
      after the limit, applying again sets the preference once but later
      events no longer restore it. */
  lemma ReapplyKeepsCounter(path: string, p: Prefs, v: VideoState)
    requires OnReelsRoute(path) && v.listener.Some?
    ensures ApplyVolumeToVideo(path, p, v).listener == v.listener
    ensures ApplyVolumeToVideo(path, p, ApplyVolumeToVideo(path, p, v)) == ApplyVolumeToVideo(path, p, v)
  {
  }
}

=== FILE: wrappers.dfy ===
/** Optional values: the model's stand-in for `null`, `undefined` and falsy fields. */
module Wrappers {

  datatype Option<+T> = None | Some(value: T) {

    /** The value, or `default` when there is none. */
    function GetOr(default: T): T {
      match this
      case Some(v) => v
      case None => default
    }
  }
}
